=== FILE: README.md ===
# KUBE lending engine in Dafny

KUBE lends kitchen utensils from a shared pool to named borrowers. Its lending
engine lives in the `KUBE` class of `KUBE/scripts/KUBE.py`. It keeps three
collections consistent:

- the utensil inventory, with total and available counts;
- the borrowing records, which are loans, possibly split by partial returns;
- the borrower directory, with credit scores and counters.

This project models that engine as pure functions over an immutable `State`.
For each action it states the outcome and the effect on the inventory, the
records and the borrower directory. It also proves that every action keeps the
collections consistent.

Modules, one per concern of the engine:

- `Names`: `lower().strip()` over ASCII, which turns a typed name into a directory key.
- `Clock`: calendar days (`%Y-%m-%d` dates) against a clock in seconds.
- `Model`: the records: utensil, loan, return info, borrower, settings and state. Also the outcome of an action (done, declined by the operator, or failed with the error the dialog shows) and the seeded first-run inventory.
- `Tally`: sums of unit quantities over unreturned loans, per utensil or per borrower.
- `Policy`: the decision helpers `is_overdue`, `days_overdue`, the late-penalty tiers, `get_credit_score_label`, `calculate_credit_score` and `get_active_borrowings_count`.
- `Scoring`: `update_credit_score`.
- `Ledger`: reserve and release of stock, the add, edit and delete utensil dialogs, and the borrow-limit setting.
- `Registry`: `process_borrow` and `process_return`.
- `Invariants`: the consistency predicate, with a preservation lemma for every action.

`Invariants.Consistent` has five parts:

- utensil ids are unique;
- for every utensil, `0 <= available <= quantity`;
- for every utensil, `quantity - available` equals the units its unreturned loans hold;
- loan ids are position + 1;
- every unreturned loan holds at least one unit of a utensil that exists, and every borrower record is valid and filed under its normalised key.

The model keeps these behaviours of the code exactly as written:

- **Overdue from the due day.** A loan counts as overdue from the first second of its due day. `is_overdue` compares `now` with midnight at the start of the due date, not the end.
- **Returns always score as on time.** `process_return` marks a record returned before it calls `update_credit_score`, and `is_overdue` is false for returned records. So the late-penalty branch is never reached from a return, and every return counts as on time (`Scoring.ReturnedRecordScoresOnTime`).
- **Borrowings are counted twice per loan.** `total_borrowings` grows at the borrow and again at the return of each record. The "10 borrowings" milestone therefore falls near the fifth borrow/return cycle.
- **A borrow batch is not all-or-nothing.** A line that asks for more than is available stops the batch, but the earlier lines stay recorded. `Registry.BorrowLines` returns the state as the loop left it.
- **A missing utensil id stops the batch the same way.** In the borrow loop, a utensil id not in the inventory makes `next(...)` raise. The model shows this as `Failed(UnknownUtensil(id))`, with the earlier lines kept.
- **An edit renames before it checks.** The edit dialog renames and recategorises before it checks the new quantity. A refused shrink therefore keeps the new name and category in memory.
- **The return path has no checks.** `process_return` never checks that a record exists or that the quantity is in range; the dialog's widgets guarantee both. The model states these guarantees as the precondition `Registry.Returnable`.

## Model

| member | source | states |
|---|---|---|
| `Names.LowerChar` | KUBE/scripts/KUBE.py:222 | an ASCII capital becomes its lower-case letter (code + 32) and every other character is kept, so whitespace is neither created nor removed |
| `Names.Lower` | KUBE/scripts/KUBE.py:222 | lowering keeps the length and lowers each character on its own |
| `Names.StripSpec` | KUBE/scripts/KUBE.py:607 | a stripped name is the infix of the input left after removing whitespace only, at both ends: what is cut is all blank, and the result is empty or starts and ends with a non-blank |
| `Names.TrimStartSpec` | KUBE/scripts/KUBE.py:607 | left trimming cuts a prefix that is all whitespace and keeps the suffix, which is empty or starts with a non-blank |
| `Names.TrimEndSpec` | KUBE/scripts/KUBE.py:607 | right trimming cuts a suffix that is all whitespace and keeps the prefix, which is empty or ends with a non-blank |
| `Names.StripIdempotent` | KUBE/scripts/KUBE.py:607 | stripping an already stripped name changes nothing |
| `Names.LowerStrip` | KUBE/scripts/KUBE.py:222 | lowering and stripping commute |
| `Names.NormalizeIdempotent` | KUBE/scripts/KUBE.py:232 | a stored key normalises to itself, so a lookup finds the record that `update_credit_score` filed |
| `Names.NormalizeIgnoresPadding` | KUBE/scripts/KUBE.py:305 | a name stripped at the borrow screen and the raw name denote the same borrower |
| `Names.NormalizeIgnoresCase` | KUBE/scripts/KUBE.py:305 | upper and lower case of a name denote the same borrower |
| `Clock.Today` | KUBE/scripts/KUBE.py:640 | today's date is the calendar day whose midnight-to-midnight span contains `now` |
| `Clock.ShiftByDays` | KUBE/scripts/KUBE.py:624 | adding n whole days to the clock moves the date by exactly n days |
| `Tally.UnitsAppend` | KUBE/scripts/KUBE.py:1207 | appending a record adds exactly its share to a unit sum |
| `Tally.UnitsConcat` | KUBE/scripts/KUBE.py:1207 | a unit sum over two runs of records is the sum of the two |
| `Tally.UnitsUpdate` | KUBE/scripts/KUBE.py:1207 | replacing one record changes a unit sum by the difference of the two shares |
| `Tally.UnitsNonNegative` | KUBE/scripts/KUBE.py:1207 | a unit sum over non-negative quantities is non-negative |
| `Tally.UnitsZeroIffNone` | KUBE/scripts/KUBE.py:1207-1208 | with positive quantities a unit sum is 0 exactly when no unreturned record matches |
| `Policy.DaysOverdue` | KUBE/scripts/KUBE.py:212-218 | 0 when not overdue; otherwise the whole days n with due+n days <= now < due+n+1 days |
| `Policy.NeverOverdueWhenClosed` | KUBE/scripts/KUBE.py:200-207 | a returned loan or one without a due date is never overdue and has 0 days overdue |
| `Policy.OverdueFromDueDay` | KUBE/scripts/KUBE.py:209-210 | not overdue before the due day or at its midnight; overdue with 0 whole days during the rest of the due day |
| `Policy.DaysOverdueCountsCalendarDays` | KUBE/scripts/KUBE.py:212-218 | after the due day, days overdue equals today's date minus the due date |
| `Policy.LatePenalty` | KUBE/scripts/KUBE.py:250-261 | -10 exactly for 1 day; -15 for 2-3 days; -20 for 4-7 days; -25 beyond; -15 for 0 or fewer days |
| `Policy.LatePenaltyMonotone` | KUBE/scripts/KUBE.py:250-261 | from one day late on, a later return never costs less |
| `Policy.CreditScoreLabel` | KUBE/scripts/KUBE.py:294-301 | "Excellent" iff score >= 70, "Fair" iff 40 <= score < 70, "Poor" iff score < 40 |
| `Policy.CreditScoreLabelMonotone` | KUBE/scripts/KUBE.py:294-301 | a higher score never gets a worse label |
| `Policy.CalculateCreditScore` | KUBE/scripts/KUBE.py:220-228 | 100 for an unknown name; otherwise the score stored under the normalised key, so within [0, 100] when every stored score is |
| `Policy.CountActiveBorrowings` | KUBE/scripts/KUBE.py:303-310 | the loop's count equals the units of the borrower's unreturned loans and is non-negative when all quantities are |
| `Policy.ActiveUnitsIgnoresPadding` | KUBE/scripts/KUBE.py:303-310 | the active count of a stripped or lowered name equals that of the raw name |
| `Scoring.ScoreReturn` | KUBE/scripts/KUBE.py:248-281 | counters move by the late/on-time and damage outcome; the score stays in [0, 100]; a late return loses at least 8 points (or ends at 2 or less); a damaged or lost item leaves at most 50 |
| `Scoring.ScoreEvent` | KUBE/scripts/KUBE.py:246-281 | every event adds one borrowing; a returned record adds an on-time return and counts damage; borrower validity is preserved |
| `Scoring.UpdateCreditScore` | KUBE/scripts/KUBE.py:230-283 | only the normalised key is added or changed; a new borrower starts from 100 with the given name and the loan's contact |
| `Scoring.UpdatePreservesDirectory` | KUBE/scripts/KUBE.py:230-246 | a directory of valid records filed under normalised keys stays so |
| `Scoring.OnTimeReturnScore` | KUBE/scripts/KUBE.py:264-281 | the closed form of an on-time return's score, by condition, including the +25 milestone |
| `Scoring.LateReturnScore` | KUBE/scripts/KUBE.py:249-281 | the closed form of a late return's score: the tiered lateness penalty floored at 0, then -50 (floored) for a damaged or lost item or +2 (capped) for an excellent one, and never the milestone |
| `Scoring.ReturnedRecordScoresOnTime` | KUBE/scripts/KUBE.py:248-268 | a record already marked returned is always scored as on time |
| `Ledger.Find` | KUBE/scripts/KUBE.py:627 | the first matching utensil, or none exactly when no utensil matches |
| `Ledger.Reserve` | KUBE/scripts/KUBE.py:647 | only the chosen utensil's availability drops, by the quantity |
| `Ledger.Release` | KUBE/scripts/KUBE.py:766-769 | the first utensil with the id gains the quantity; ids, totals and other utensils are unchanged; nothing changes for an unknown id |
| `Ledger.MaxId` | KUBE/scripts/KUBE.py:1075 | an upper bound of all ids that one of them attains, or 0 for an empty inventory |
| `Ledger.AddUtensil` | KUBE/scripts/KUBE.py:1066-1082 | refused iff the stripped name is empty; otherwise appends a utensil with id max+1 (1 for an empty inventory), the stripped name, the stripped category or the default one, and all units available; nothing else changes |
| `Ledger.Resize` | KUBE/scripts/KUBE.py:1151-1165 | refused iff the shrink falls below the borrowed count; the borrowed count is kept; growth adds to availability |
| `Ledger.EditUtensil` | KUBE/scripts/KUBE.py:1138-1169 | not found, empty name and capacity errors as the dialog gives them; success iff the new total fits; a refused resize keeps the new name but the old counts |
| `Ledger.DeleteUtensil` | KUBE/scripts/KUBE.py:1199-1217 | removes the utensil iff it is found, none of it is out, and the operator confirms; reports the units out otherwise |
| `Ledger.SetBorrowLimit` | KUBE/scripts/KUBE.py:1337-1339 | stores the limit and changes nothing else |
| `Registry.BorrowLines` | KUBE/scripts/KUBE.py:626-648 | the batch completes iff every line is recorded; otherwise it stops on a stock shortage or an unknown id |
| `Registry.BorrowLinesAppends` | KUBE/scripts/KUBE.py:626-648 | existing records are untouched and each new record carries the next id, the borrower, the id and name of the utensil the line selects, the quantity, both dates and the contact, and is open with no return info |
| `Registry.BorrowLinesActiveUnits` | KUBE/scripts/KUBE.py:618-648 | the borrower's active units grow by at most the requested total, and by exactly it when the batch completes |
| `Registry.TotalQtyCoversLines` | KUBE/scripts/KUBE.py:618 | the requested total is at least the number of lines |
| `Registry.BorrowLinesStops` | KUBE/scripts/KUBE.py:626-633 | a batch that does not complete stopped at the first line not applied: its utensil id is not in the inventory, or it asks for more than the utensil has available once the earlier lines are applied |
| `Registry.BorrowLinesCompletes` | KUBE/scripts/KUBE.py:626-648 | lines that name distinct existing utensils, each asking for no more than is available, are all applied |
| `Registry.BorrowLinesStock` | KUBE/scripts/KUBE.py:626-647 | ids, names, categories and totals stay; each utensil's availability drops by exactly the units of the appended records that name it |
| `Registry.BorrowLinesDirectory` | KUBE/scripts/KUBE.py:626-648 | the borrower's record, created fresh on first use, gains one borrowing per applied line; no other record changes and no other key appears |
| `Registry.Borrow` | KUBE/scripts/KUBE.py:606-653 | empty name, no selection and limit exceeded each change nothing and report as the dialog does; a batch within the limit, equality included, runs the line loop with the stripped name, today's date and the due date `dueDays` later; success iff every line is recorded |
| `Registry.GateKeepsLimit` | KUBE/scripts/KUBE.py:618-622 | a batch that passes the limit gate leaves the borrower within the limit |
| `Registry.BorrowWithinLimit` | KUBE/scripts/KUBE.py:606-648 | after any borrow that records loans, the borrower's active units are within the limit |
| `Registry.ReturnLoan` | KUBE/scripts/KUBE.py:743-764 | the record is closed with the returned quantity and return info; a partial return appends the remainder as a new open record with no return info, the next id, the left-over units and the same borrower, contact, utensil id and name, and dates; no other record changes |
| `Registry.ReturnRestocks` | KUBE/scripts/KUBE.py:766-769 | the first utensil with the record's id gets the returned units back as available; nothing else in the inventory changes |
| `Registry.ReturnCountsOnTime` | KUBE/scripts/KUBE.py:759-771 | a return adds one borrowing and one on-time return and no late return to the borrower, whatever the clock says. The borrower's record is the on-time scoring of the prior record, with the borrowing counted, under the chosen condition. A damaged or lost item adds one to the damaged count. No other borrower changes |
| `Registry.ReturnScore` | KUBE/scripts/KUBE.py:264-281 | after a return the score is `max(0, min(100, prior + 5) - 50)` for a damaged or lost item; otherwise it is `min(100, prior + 5, or + 7 when the condition is excellent, plus 25 when the tenth borrowing completes a history with no late return and no damage)` |
| `Registry.ReturnKeepsOthersReturnable` | KUBE/scripts/KUBE.py:739-742 | after one return the other selected records can still be returned |
| `Registry.ReturnAll` | KUBE/scripts/KUBE.py:739-771 | the settings are unchanged and no record is removed |
| `Registry.ReturnAllKeeps` | KUBE/scripts/KUBE.py:739-771 | every record the selection does not name is left as it was, and no record is removed |
| `Registry.ReturnAllCloses` | KUBE/scripts/KUBE.py:739-771 | every selected record ends returned, with its requested quantity, today's return date and its condition and notes |
| `Registry.ReturnBatch` | KUBE/scripts/KUBE.py:733-776 | an empty selection is refused and changes nothing; otherwise every selected record is returned |
| `Invariants.InitialConsistent` | KUBE/scripts/KUBE.py:127-156 | the first-run inventory and empty ledgers are consistent |
| `Invariants.NoneOutstanding` | KUBE/scripts/KUBE.py:1207 | a utensil that no open loan names has nothing out |
| `Invariants.BorrowLinePreserves` | KUBE/scripts/KUBE.py:627-648 | one recorded line keeps the state consistent |
| `Invariants.BorrowLinesPreserves` | KUBE/scripts/KUBE.py:626-648 | the line loop keeps the state consistent wherever it stops |
| `Invariants.BorrowPreserves` | KUBE/scripts/KUBE.py:606-653 | every borrow outcome keeps the state consistent |
| `Invariants.ReturnReleasesUnits` | KUBE/scripts/KUBE.py:743-769 | a return lowers the returned utensil's outstanding units by the returned quantity and leaves other utensils alone |
| `Invariants.CloseRecordKeepsLedger` | KUBE/scripts/KUBE.py:743-769 | closing a record and putting its units back keeps utensil ids unique, every balance, sequential record ids and well-formed open records |
| `Invariants.ReturnLoanPreserves` | KUBE/scripts/KUBE.py:738-771 | one return, full or partial, keeps the state consistent |
| `Invariants.ReturnAllPreserves` | KUBE/scripts/KUBE.py:739-771 | the return loop keeps the state consistent |
| `Invariants.ReturnBatchPreserves` | KUBE/scripts/KUBE.py:733-776 | every return outcome keeps the state consistent |
| `Invariants.AddPreserves` | KUBE/scripts/KUBE.py:1066-1082 | adding a utensil keeps the state consistent |
| `Invariants.EditPreserves` | KUBE/scripts/KUBE.py:1138-1169 | every edit outcome, including a refused shrink after the rename, keeps the state consistent |
| `Invariants.DeletePreserves` | KUBE/scripts/KUBE.py:1199-1217 | deleting keeps the state consistent: no open loan is left naming a missing utensil |
| `Invariants.SetBorrowLimitPreserves` | KUBE/scripts/KUBE.py:1337-1339 | changing the limit keeps the state consistent |

## Left out

- The Tk user interface is not modelled: screens, dialogs, message boxes, the loading animation and the colour helper `get_credit_score_color`. Each action's outcome stands for the message the dialog shows.
- Persistence is not modelled: JSON load and save, CSV export of the transaction log, and the search and dashboard views, which only read the state.
- The admin login with SHA-256 password hashing, the password change and the trial-period gate are not modelled, because they are outside the lending engine.
- The clock and the date strings are not modelled as such. `datetime.now()` becomes the parameter `now` (seconds since the epoch in local time), and a `%Y-%m-%d` date becomes its day number. Time zones and string parsing are not modelled.
- `Names.Lower` models `str.lower` and `str.strip` on ASCII only; Unicode case mapping and non-ASCII whitespace are not modelled.
- The phone and email typed at the borrow screen are carried through unchecked, as the code does.
- The spin boxes bound every quantity the actions receive. The model keeps their lower bounds as preconditions: a borrow line asks for at least one unit (`Registry.PositiveLines`), a new utensil has at least one unit, and the limit is at least 1. Values typed past a spin box's range are not modelled.
- Loans are selected by position in the return path; the code holds the record object itself.
- `Registry.ReturnAll`: its own contract states only the frame. What it does to the records is stated by `Registry.ReturnAllKeeps` and `Registry.ReturnAllCloses`, and how it keeps the state consistent by `Invariants.ReturnAllPreserves`.
- `Registry.BorrowLines`: its own contract states the outcome and the count of recorded lines. Separate lemmas state the rest: the contents of the records (`Registry.BorrowLinesAppends`), the line it stops at (`Registry.BorrowLinesStops`), when it completes (`Registry.BorrowLinesCompletes`), the stock (`Registry.BorrowLinesStock`), the directory (`Registry.BorrowLinesDirectory`) and the borrower's active count (`Registry.BorrowLinesActiveUnits`).
- `Registry.BorrowLinesCompletes`: a sufficient condition only. A batch that names one utensil twice may also complete, when the earlier line leaves enough for the later one; `Registry.BorrowLinesStops` covers that case line by line.
- `Registry.ReturnLoan`: its own contract states the effect on the records. The effect on stock is stated by `Registry.ReturnRestocks`. The effect on the borrower's counts and record is stated by `Registry.ReturnCountsOnTime`, and the resulting score by `Registry.ReturnScore`.

=== FILE: clock.dfy ===
/**
 The engine reads the wall clock through `datetime.now()` and stores dates as
 "%Y-%m-%d" strings. Here "now" is a parameter counted in seconds and a date is
 a day number; a date string parsed back means midnight at the start of its day.
 */
module Clock {

  /** Seconds in a day. */
  const SecondsPerDay: int := 86400

  /** The instant a date string denotes once parsed: 00:00:00 of that day. */
  function Midnight(day: int): int {
    day * SecondsPerDay
  }

  /** The calendar day `now` falls in, as `now.strftime("%Y-%m-%d")` records it. */
  function Today(now: int): (d: int)
    ensures Midnight(d) <= now < Midnight(d + 1)
  {
    now / SecondsPerDay
  }

  /** `now + timedelta(days=n)` formatted as a date is `n` days after today. */
  lemma ShiftByDays(now: int, n: int)
    ensures Today(now + n * SecondsPerDay) == Today(now) + n
  {
    var d := Today(now);
    assert Midnight(d + n) <= now + n * SecondsPerDay < Midnight(d + n + 1);
  }
}

=== FILE: invariants.dfy ===
/**
 The consistency the engine keeps between its three collections, and proofs
 that every action of the model preserves it: each utensil's borrowed count
 (`quantity - available`) equals the units its unreturned loans hold.
 */
module Invariants {
  import opened Model
  import opened Clock
  import opened Names
  import opened Tally
  import opened Policy
  import opened Scoring
  import opened Ledger
  import opened Registry

  ghost predicate UniqueIds(utensils: seq<Utensil>) {
    forall i, j :: 0 <= i < j < |utensils| ==> utensils[i].id != utensils[j].id
  }

  ghost predicate HasUtensil(utensils: seq<Utensil>, id: int) {
    exists i :: 0 <= i < |utensils| && utensils[i].id == id
  }

  /** `0 <= available <= quantity` and the borrowed count matches the open loans. */
  ghost predicate Balanced(u: Utensil, loans: seq<Loan>) {
    0 <= u.available <= u.quantity && Borrowed(u) == Outstanding(loans, u.id)
  }

  ghost predicate LedgerBalanced(utensils: seq<Utensil>, loans: seq<Loan>) {
    forall i :: 0 <= i < |utensils| ==> Balanced(utensils[i], loans)
  }

  /** Loan ids are `position + 1`, as `len(borrowings) + 1` assigns them. */
  ghost predicate SequentialIds(loans: seq<Loan>) {
    forall i :: 0 <= i < |loans| ==> loans[i].id == i + 1
  }

  /** Every open loan holds at least one unit of a utensil that exists. */
  ghost predicate OpenLoansWellFormed(utensils: seq<Utensil>, loans: seq<Loan>) {
    forall i :: 0 <= i < |loans| && !loans[i].returned ==>
      loans[i].quantity >= 1 && HasUtensil(utensils, loans[i].utensilId)
  }

  ghost predicate Consistent(s: State) {
    && UniqueIds(s.utensils)
    && LedgerBalanced(s.utensils, s.loans)
    && SequentialIds(s.loans)
    && OpenLoansWellFormed(s.utensils, s.loans)
    && DirectoryValid(s.borrowers)
  }

  /** Two inventories that differ at most in names, categories and counts. */
  ghost predicate SameIds(a: seq<Utensil>, b: seq<Utensil>) {
    |a| == |b| && forall i :: 0 <= i < |a| ==> a[i].id == b[i].id
  }

  lemma InitialConsistent()
    ensures Consistent(InitialState())
  {
  }

  /** With positive open quantities, a utensil no open loan names has nothing out. */
  lemma NoneOutstanding(loans: seq<Loan>, id: int)
    requires forall i :: 0 <= i < |loans| && !loans[i].returned ==> loans[i].quantity >= 1
    requires forall i :: 0 <= i < |loans| && !loans[i].returned ==> loans[i].utensilId != id
    ensures Outstanding(loans, id) == 0
  {
    UnitsZeroIffNone(loans, ByUtensil(id));
  }

  /** A single borrow line keeps the state consistent. */
  lemma BorrowLinePreserves(s: State, name: string, j: nat, qty: int, today: int, due: int, contact: Contact, now: int)
    requires Consistent(s)
    requires j < |s.utensils| && 1 <= qty <= s.utensils[j].available
    ensures Consistent(BorrowLine(s, name, j, qty, today, due, contact, now))
  {
    var l := NewLoan(s.loans, name, s.utensils[j], qty, today, due, contact);
    var r := BorrowLine(s, name, j, qty, today, due, contact, now);
    assert r.loans == s.loans + [l];
    assert SameIds(s.utensils, r.utensils);
    forall i | 0 <= i < |r.utensils|
      ensures Balanced(r.utensils[i], r.loans)
    {
      UnitsAppend(s.loans, l, ByUtensil(r.utensils[i].id));
      assert Balanced(s.utensils[i], s.loans);
    }
    forall i | 0 <= i < |r.loans| && !r.loans[i].returned
      ensures r.loans[i].quantity >= 1 && HasUtensil(r.utensils, r.loans[i].utensilId)
    {
      if i < |s.loans| {
        assert r.loans[i] == s.loans[i];
        var w :| 0 <= w < |s.utensils| && s.utensils[w].id == s.loans[i].utensilId;
        assert r.utensils[w].id == r.loans[i].utensilId;
      } else {
        assert r.utensils[j].id == r.loans[i].utensilId;
      }
    }
    UpdatePreservesDirectory(s.borrowers, name, l, now);
  }

  /** The line loop keeps the state consistent, however far it gets. */
  lemma {:induction false} BorrowLinesPreserves(s: State, name: string, lines: seq<Line>, today: int, due: int, contact: Contact, now: int)
    requires Consistent(s) && PositiveLines(lines)
    ensures Consistent(BorrowLines(s, name, lines, today, due, contact, now).state)
    decreases |lines|
  {
    if |lines| > 0 {
      var line := lines[0];
      match Find(s.utensils, ById(line.utensilId))
      case None =>
        assert BorrowLines(s, name, lines, today, due, contact, now).state == s;
      case Some(j) =>
        if line.qty > s.utensils[j].available {
          assert BorrowLines(s, name, lines, today, due, contact, now).state == s;
        } else {
          BorrowLinePreserves(s, name, j, line.qty, today, due, contact, now);
          BorrowLinesPreserves(BorrowLine(s, name, j, line.qty, today, due, contact, now), name, lines[1..], today, due, contact, now);
        }
    }
  }

  /** A whole borrow action keeps the state consistent, accepted, refused or stopped midway. */
  lemma BorrowPreserves(s: State, rawName: string, lines: seq<Line>, dueDays: int, contact: Contact, now: int)
    requires Consistent(s) && PositiveLines(lines)
    ensures Consistent(Borrow(s, rawName, lines, dueDays, contact, now).state)
  {
    if Strip(rawName) != [] && lines != [] && ActiveUnits(s.loans, rawName) + TotalQty(lines) <= s.settings.maxBorrowLimit {
      BorrowLinesPreserves(s, Strip(rawName), lines, Today(now), Today(now) + dueDays, contact, now);
    }
  }

  /** The unit count of a return, on the records alone: closing `qty` units of the
      record at `k` (and spawning the remainder) releases exactly `qty` units. */
  lemma CloseRecordReleases(loans: seq<Loan>, k: nat, qty: int, info: ReturnInfo, id: int)
    requires Returnable(loans, k, qty)
    ensures Outstanding(CloseRecord(loans, k, qty, info), id)
            == Outstanding(loans, id) - (if id == loans[k].utensilId then qty else 0)
  {
    var l := loans[k];
    var f := ByUtensil(id);
    var closed := l.(returned := true, quantity := qty, returnInfo := Some(info));
    var spawned := if qty < l.quantity then loans + [Remainder(loans, l, l.quantity - qty)] else loans;
    if qty < l.quantity {
      UnitsAppend(loans, Remainder(loans, l, l.quantity - qty), f);
    }
    assert spawned[k] == l;
    UnitsUpdate(spawned, k, closed, f);
  }

  /** Returning `qty` units of the loan at `k` lowers that utensil's outstanding
      count by exactly `qty` and leaves every other utensil's count alone. */
  lemma ReturnReleasesUnits(s: State, k: nat, qty: int, cond: Condition, notes: string, now: int, id: int)
    requires Returnable(s.loans, k, qty)
    ensures Outstanding(ReturnLoan(s, k, qty, cond, notes, now).loans, id)
            == Outstanding(s.loans, id) - (if id == s.loans[k].utensilId then qty else 0)
  {
    var info := ReturnInfo(Today(now), cond, notes, qty);
    assert ReturnLoan(s, k, qty, cond, notes, now).loans == CloseRecord(s.loans, k, qty, info);
    CloseRecordReleases(s.loans, k, qty, info, id);
  }

  /** The ledger half of a return, on the collections alone: closing the record at
      `k` and putting its units back on the utensil keeps ids, open records and
      balances consistent. */
  lemma CloseRecordKeepsLedger(utensils: seq<Utensil>, loans: seq<Loan>, k: nat, qty: int, info: ReturnInfo)
    requires UniqueIds(utensils) && LedgerBalanced(utensils, loans)
    requires SequentialIds(loans) && OpenLoansWellFormed(utensils, loans)
    requires Returnable(loans, k, qty)
    ensures var u := Release(utensils, loans[k].utensilId, qty);
      var c := CloseRecord(loans, k, qty, info);
      UniqueIds(u) && LedgerBalanced(u, c) && SequentialIds(c) && OpenLoansWellFormed(u, c)
  {
    var l := loans[k];
    var u := Release(utensils, l.utensilId, qty);
    var c := CloseRecord(loans, k, qty, info);
    assert SameIds(utensils, u);
    var w :| 0 <= w < |utensils| && utensils[w].id == l.utensilId;
    assert Find(utensils, ById(l.utensilId)) == Some(w);
    assert SequentialIds(c) by {
      forall i | 0 <= i < |c|
        ensures c[i].id == i + 1
      {
        if i < |loans| && i != k {
          assert c[i] == loans[i];
        }
      }
    }
    assert OpenLoansWellFormed(u, c) by {
      forall i | 0 <= i < |c| && !c[i].returned
        ensures c[i].quantity >= 1 && HasUtensil(u, c[i].utensilId)
      {
        if i < |loans| {
          assert i != k;
          assert c[i] == loans[i];
          var v :| 0 <= v < |utensils| && utensils[v].id == loans[i].utensilId;
          assert u[v].id == c[i].utensilId;
        } else {
          assert u[w].id == c[i].utensilId;
        }
      }
    }
    forall i | 0 <= i < |u|
      ensures Balanced(u[i], c)
    {
      var id := u[i].id;
      CloseRecordReleases(loans, k, qty, info, id);
      assert Balanced(utensils[i], loans);
      UnitsNonNegative(c, ByUtensil(id));
    }
  }

  /** A single return keeps the state consistent. */
  lemma ReturnLoanPreserves(s: State, k: nat, qty: int, cond: Condition, notes: string, now: int)
    requires Consistent(s) && Returnable(s.loans, k, qty)
    ensures Consistent(ReturnLoan(s, k, qty, cond, notes, now))
  {
    var l := s.loans[k];
    var info := ReturnInfo(Today(now), cond, notes, qty);
    var r := ReturnLoan(s, k, qty, cond, notes, now);
    assert r.loans == CloseRecord(s.loans, k, qty, info);
    assert r.utensils == Release(s.utensils, l.utensilId, qty);
    CloseRecordKeepsLedger(s.utensils, s.loans, k, qty, info);
    UpdatePreservesDirectory(s.borrowers, l.borrowerName, r.loans[k], now);
  }

  /** The return loop keeps the state consistent. */
  lemma {:induction false} ReturnAllPreserves(s: State, reqs: seq<ReturnRequest>, now: int)
    requires Consistent(s) && ValidReturns(s.loans, reqs)
    ensures Consistent(ReturnAll(s, reqs, now))
    decreases |reqs|
  {
    if |reqs| > 0 {
      var q := reqs[0];
      ReturnLoanPreserves(s, q.index, q.qty, q.condition, q.notes, now);
      ReturnKeepsOthersReturnable(s, reqs, now);
      ReturnAllPreserves(ReturnLoan(s, q.index, q.qty, q.condition, q.notes, now), reqs[1..], now);
    }
  }

  lemma ReturnBatchPreserves(s: State, reqs: seq<ReturnRequest>, now: int)
    requires Consistent(s) && ValidReturns(s.loans, reqs)
    ensures Consistent(ReturnBatch(s, reqs, now).state)
  {
    if reqs != [] {
      ReturnAllPreserves(s, reqs, now);
    }
  }

  /** Adding a utensil keeps the state consistent: its id is fresh, so no open loan names it. */
  lemma AddPreserves(s: State, rawName: string, rawCategory: string, qty: int)
    requires Consistent(s) && qty >= 1
    ensures Consistent(AddUtensil(s, rawName, rawCategory, qty).state)
  {
    var o := AddUtensil(s, rawName, rawCategory, qty);
    if o.status == Done {
      var n := |s.utensils|;
      var u := o.state.utensils[n];
      forall i | 0 <= i < |s.loans| && !s.loans[i].returned
        ensures s.loans[i].utensilId != u.id
      {
        var v :| 0 <= v < n && s.utensils[v].id == s.loans[i].utensilId;
      }
      NoneOutstanding(s.loans, u.id);
      assert Balanced(u, s.loans);
      forall i | 0 <= i < n
        ensures o.state.utensils[i] == s.utensils[i]
      {
        assert o.state.utensils[..n][i] == o.state.utensils[i];
      }
      assert OpenLoansWellFormed(o.state.utensils, o.state.loans) by {
        forall i | 0 <= i < |s.loans| && !s.loans[i].returned
          ensures HasUtensil(o.state.utensils, s.loans[i].utensilId)
        {
          var v :| 0 <= v < n && s.utensils[v].id == s.loans[i].utensilId;
          assert o.state.utensils[v].id == s.loans[i].utensilId;
        }
      }
    }
  }

  /** Editing a utensil keeps the state consistent, including a refused resize
      that has already renamed it. */
  lemma EditPreserves(s: State, selectedName: string, rawNewName: string, rawCategory: string, newQty: int)
    requires Consistent(s)
    ensures Consistent(EditUtensil(s, selectedName, rawNewName, rawCategory, newQty).state)
  {
    var o := EditUtensil(s, selectedName, rawNewName, rawCategory, newQty);
    if Find(s.utensils, ByName(selectedName)).Some? && Strip(rawNewName) != [] {
      var j := Find(s.utensils, ByName(selectedName)).value;
      assert SameIds(s.utensils, o.state.utensils);
      assert Balanced(s.utensils[j], s.loans);
      UnitsNonNegative(s.loans, ByUtensil(s.utensils[j].id));
      assert Balanced(o.state.utensils[j], o.state.loans);
      forall i | 0 <= i < |s.loans| && !s.loans[i].returned
        ensures HasUtensil(o.state.utensils, s.loans[i].utensilId)
      {
        var v :| 0 <= v < |s.utensils| && s.utensils[v].id == s.loans[i].utensilId;
        assert o.state.utensils[v].id == s.loans[i].utensilId;
      }
    }
  }

  /** Deleting a utensil keeps the state consistent: it had no open loan, so every
      open loan still names a utensil that exists. */
  lemma DeletePreserves(s: State, selectedName: string, confirmed: bool)
    requires Consistent(s)
    ensures Consistent(DeleteUtensil(s, selectedName, confirmed).state)
  {
    var o := DeleteUtensil(s, selectedName, confirmed);
    if o.status == Done {
      var j := Find(s.utensils, ByName(selectedName)).value;
      var gone := s.utensils[j].id;
      var rest := o.state.utensils;
      assert rest == s.utensils[..j] + s.utensils[j + 1..];
      assert forall i :: 0 <= i < j ==> rest[i] == s.utensils[i];
      assert forall i :: j <= i < |rest| ==> rest[i] == s.utensils[i + 1];
      UnitsZeroIffNone(s.loans, ByUtensil(gone));
      UnitsNonNegative(s.loans, ByUtensil(gone));
      forall i | 0 <= i < |s.loans| && !s.loans[i].returned
        ensures HasUtensil(rest, s.loans[i].utensilId)
      {
        assert !Counts(s.loans[i], ByUtensil(gone));
        var v :| 0 <= v < |s.utensils| && s.utensils[v].id == s.loans[i].utensilId;
        if v < j {
          assert rest[v].id == s.loans[i].utensilId;
        } else {
          assert v != j;
          assert rest[v - 1].id == s.loans[i].utensilId;
        }
      }
    }
  }

  lemma SetBorrowLimitPreserves(s: State, limit: int)
    requires Consistent(s) && limit >= 1
    ensures Consistent(SetBorrowLimit(s, limit))
  {
  }
}

=== FILE: ledger.dfy ===
/**
 The inventory ledger: locating a utensil, taking units out and putting them
 back, and the add / edit / delete actions of the equipment screen, plus the
 borrow-limit setting.
 */
module Ledger {
  import opened Model
  import opened Names
  import opened Tally

  /** How an action picks a utensil: the borrow and return paths by id, the
      edit and delete dialogs by the name chosen in their drop-down. */
  datatype Selector = ById(id: int) | ByName(name: string)

  predicate Selects(u: Utensil, sel: Selector) {
    match sel
    case ById(id) => u.id == id
    case ByName(name) => u.name == name
  }

  /** The first utensil the selector matches, as `next(u for u in utensils if ...)`. */
  function Find(utensils: seq<Utensil>, sel: Selector): (r: Option<nat>)
    ensures r.Some? ==> r.value < |utensils| && Selects(utensils[r.value], sel)
    ensures r.Some? ==> forall j :: 0 <= j < r.value ==> !Selects(utensils[j], sel)
    ensures r.None? <==> forall j :: 0 <= j < |utensils| ==> !Selects(utensils[j], sel)
  {
    if |utensils| == 0 then None
    else if Selects(utensils[0], sel) then Some(0)
    else match Find(utensils[1..], sel)
      case None => None
      case Some(j) => Some(j + 1)
  }

  /** Lookup by id sees only the ids, so it agrees on two inventories with the same ids in the same order. */
  lemma {:induction false} FindByIdSameIds(a: seq<Utensil>, b: seq<Utensil>, id: int)
    requires |a| == |b| && forall i :: 0 <= i < |a| ==> a[i].id == b[i].id
    ensures Find(a, ById(id)) == Find(b, ById(id))
    decreases |a|
  {
    if |a| > 0 && a[0].id != id {
      assert forall i :: 0 <= i < |a| - 1 ==> a[1..][i].id == b[1..][i].id by {
        forall i | 0 <= i < |a| - 1 ensures a[1..][i].id == b[1..][i].id {
          assert a[1..][i] == a[i + 1] && b[1..][i] == b[i + 1];
        }
      }
      FindByIdSameIds(a[1..], b[1..], id);
    }
  }

  /** Takes `qty` units of the utensil at index `j` out of stock. */
  function Reserve(utensils: seq<Utensil>, j: nat, qty: int): (r: seq<Utensil>)
    requires j < |utensils|
    ensures |r| == |utensils|
    ensures r[j] == utensils[j].(available := utensils[j].available - qty)
    ensures forall i :: 0 <= i < |utensils| && i != j ==> r[i] == utensils[i]
  {
    utensils[j := utensils[j].(available := utensils[j].available - qty)]
  }

  /** The name of the first utensil with the given id, as a record issued for that id
      copies it; empty when there is none. */
  function NameOf(utensils: seq<Utensil>, id: int): string {
    match Find(utensils, ById(id))
    case Some(j) => utensils[j].name
    case None => ""
  }

  /** Taking units out of stock renames nothing. */
  lemma ReserveKeepsNames(utensils: seq<Utensil>, j: nat, qty: int, id: int)
    requires j < |utensils|
    ensures NameOf(Reserve(utensils, j, qty), id) == NameOf(utensils, id)
  {
    FindByIdSameIds(utensils, Reserve(utensils, j, qty), id);
  }

  /** Puts `qty` units back on the first utensil with the given id; nothing changes when there is none. */
  function Release(utensils: seq<Utensil>, utensilId: int, qty: int): (r: seq<Utensil>)
    ensures |r| == |utensils|
    ensures forall i :: 0 <= i < |utensils| ==> r[i].id == utensils[i].id && r[i].quantity == utensils[i].quantity
    ensures forall i :: 0 <= i < |utensils| && utensils[i].id != utensilId ==> r[i] == utensils[i]
    ensures Find(utensils, ById(utensilId)).Some? ==>
              var j := Find(utensils, ById(utensilId)).value;
              r[j] == utensils[j].(available := utensils[j].available + qty)
    ensures Find(utensils, ById(utensilId)).None? ==> r == utensils
  {
    match Find(utensils, ById(utensilId))
    case None => utensils
    case Some(j) => utensils[j := utensils[j].(available := utensils[j].available + qty)]
  }

  /** `max([u["id"] for u in utensils], default=0)` */
  function MaxId(utensils: seq<Utensil>): (m: int)
    ensures forall i :: 0 <= i < |utensils| ==> utensils[i].id <= m
    ensures |utensils| == 0 ==> m == 0
    ensures |utensils| > 0 ==> exists i :: 0 <= i < |utensils| && utensils[i].id == m
  {
    if |utensils| == 0 then 0
    else if |utensils| == 1 then utensils[0].id
    else
      var rest := MaxId(utensils[1..]);
      assert forall i :: 1 <= i < |utensils| ==> utensils[i] == utensils[1..][i - 1];
      if utensils[0].id >= rest then utensils[0].id else rest
  }

  /** An empty category is stored as "Uncategorized". */
  function CategoryOr(category: string): string {
    if category == [] then "Uncategorized" else category
  }

  /** The add dialog: a fresh id one above the largest, with every unit available. */
  function AddUtensil(s: State, rawName: string, rawCategory: string, qty: int): (o: Step)
    requires qty >= 1
    ensures Strip(rawName) == [] <==> o.status == Failed(EmptyName)
    ensures o.status == Failed(EmptyName) ==> o.state == s
    ensures o.status != Failed(EmptyName) ==> o.status == Done
    ensures o.status == Done ==>
              && o.state == s.(utensils := o.state.utensils)
              && |o.state.utensils| == |s.utensils| + 1
              && o.state.utensils[..|s.utensils|] == s.utensils
              && var u := o.state.utensils[|s.utensils|];
                 && u.id == MaxId(s.utensils) + 1
                 && (forall i :: 0 <= i < |s.utensils| ==> s.utensils[i].id < u.id)
                 && u.name == Strip(rawName) && u.category == CategoryOr(Strip(rawCategory))
                 && u.quantity == qty && u.available == qty
  {
    var name := Strip(rawName);
    if name == [] then Step(s, Failed(EmptyName))
    else
      var u := Utensil(MaxId(s.utensils) + 1, name, CategoryOr(Strip(rawCategory)), qty, qty);
      Step(s.(utensils := s.utensils + [u]), Done)
  }

  /** Units of a utensil currently out, as the ledger itself records it. */
  function Borrowed(u: Utensil): int {
    u.quantity - u.available
  }

  /** Whether the edit dialog accepts a new total: growing is always accepted; shrinking
      only down to the borrowed count. */
  predicate Fits(u: Utensil, newQty: int) {
    newQty >= u.quantity || newQty >= Borrowed(u)
  }

  /** The new quantity and availability the edit dialog sets, or None when a shrink
      would fall below the borrowed count. */
  function Resize(u: Utensil, newQty: int): (r: Option<Utensil>)
    ensures r.None? <==> !Fits(u, newQty)
    ensures r.Some? ==> r.value == u.(quantity := newQty, available := r.value.available)
    ensures r.Some? ==> Borrowed(r.value) == Borrowed(u)
    ensures r.Some? && newQty >= u.quantity ==> r.value.available == u.available + (newQty - u.quantity)
  {
    if newQty > u.quantity then Some(u.(available := u.available + (newQty - u.quantity), quantity := newQty))
    else if newQty < u.quantity then
      var borrowed := u.quantity - u.available;
      if borrowed > newQty then None
      else Some(u.(available := newQty - borrowed, quantity := newQty))
    else Some(u.(quantity := newQty))
  }

  /** The edit dialog. It renames and recategorises the selected utensil before it
      checks the new quantity, so a refused resize keeps the new name and category. */
  function EditUtensil(s: State, selectedName: string, rawNewName: string, rawCategory: string, newQty: int): (o: Step)
    ensures o.state == s.(utensils := o.state.utensils)
    ensures |o.state.utensils| == |s.utensils|
    ensures Find(s.utensils, ByName(selectedName)).None? ==> o == Step(s, Failed(NotFound))
    ensures Find(s.utensils, ByName(selectedName)).Some? && Strip(rawNewName) == [] ==> o == Step(s, Failed(EmptyName))
    ensures o.status == Done <==>
              && Find(s.utensils, ByName(selectedName)).Some?
              && Strip(rawNewName) != []
              && Fits(s.utensils[Find(s.utensils, ByName(selectedName)).value], newQty)
    ensures Find(s.utensils, ByName(selectedName)).Some? && Strip(rawNewName) != [] ==>
              var j := Find(s.utensils, ByName(selectedName)).value;
              var u := s.utensils[j];
              && (forall i :: 0 <= i < |s.utensils| && i != j ==> o.state.utensils[i] == s.utensils[i])
              && o.state.utensils[j].id == u.id
              && o.state.utensils[j].name == Strip(rawNewName)
              && o.state.utensils[j].category == CategoryOr(Strip(rawCategory))
              && Borrowed(o.state.utensils[j]) == Borrowed(u)
              && (o.status == Done ==> o.state.utensils[j].quantity == newQty)
              && (o.status.Failed? ==>
                    && o.status.error == CapacityViolation(Borrowed(u))
                    && o.state.utensils[j].quantity == u.quantity
                    && o.state.utensils[j].available == u.available)
  {
    match Find(s.utensils, ByName(selectedName))
    case None => Step(s, Failed(NotFound))
    case Some(j) =>
      var newName := Strip(rawNewName);
      if newName == [] then Step(s, Failed(EmptyName))
      else
        var renamed := s.utensils[j].(name := newName, category := CategoryOr(Strip(rawCategory)));
        match Resize(renamed, newQty)
        case None => Step(s.(utensils := s.utensils[j := renamed]), Failed(CapacityViolation(Borrowed(renamed))))
        case Some(resized) => Step(s.(utensils := s.utensils[j := resized]), Done)
  }

  /** The delete dialog: refused while any unit of the selected utensil is out, and
      performed only once the operator confirms. */
  function DeleteUtensil(s: State, selectedName: string, confirmed: bool): (o: Step)
    ensures o.state == s.(utensils := o.state.utensils)
    ensures Find(s.utensils, ByName(selectedName)).None? ==> o == Step(s, Failed(NotFound))
    ensures o.status != Done ==> o.state == s
    ensures o.status == Done <==>
              && Find(s.utensils, ByName(selectedName)).Some?
              && Outstanding(s.loans, s.utensils[Find(s.utensils, ByName(selectedName)).value].id) <= 0
              && confirmed
    ensures o.status == Done ==>
              var j := Find(s.utensils, ByName(selectedName)).value;
              o.state.utensils == s.utensils[..j] + s.utensils[j + 1..]
    ensures o.status.Failed? && Find(s.utensils, ByName(selectedName)).Some? ==>
              var count := Outstanding(s.loans, s.utensils[Find(s.utensils, ByName(selectedName)).value].id);
              count > 0 && o.status.error == ItemInUse(count)
  {
    match Find(s.utensils, ByName(selectedName))
    case None => Step(s, Failed(NotFound))
    case Some(j) =>
      var count := Outstanding(s.loans, s.utensils[j].id);
      if count > 0 then Step(s, Failed(ItemInUse(count)))
      else if !confirmed then Step(s, Declined)
      else Step(s.(utensils := s.utensils[..j] + s.utensils[j + 1..]), Done)
  }

  /** The settings screen stores the limit the spin box allows (1 to 50). */
  function SetBorrowLimit(s: State, limit: int): (r: State)
    requires limit >= 1
    ensures r.settings.maxBorrowLimit == limit
    ensures r.utensils == s.utensils && r.loans == s.loans && r.borrowers == s.borrowers
  {
    s.(settings := Settings(limit))
  }
}

=== FILE: model.dfy ===
/**
 The records the lending engine keeps in memory: the utensil inventory, the
 loan records ("borrowings"), the borrower statistics keyed by normalised name,
 and the settings record. Dates are day numbers (see module Clock).
 */
module Model {

  datatype Option<T> = None | Some(value: T)

  /** The five conditions the return form offers. */
  datatype Condition = Excellent | Good | Fair | Damaged | Lost

  datatype Contact = Contact(phone: string, email: string)

  /** The fields stamped on a loan record when it is returned. */
  datatype ReturnInfo = ReturnInfo(returnDate: int, condition: Condition, notes: string, returnQuantity: int)

  /** One loan record. `dueDate` may be absent in a hand-edited record; the engine always sets it. */
  datatype Loan = Loan(
    id: int,
    borrowerName: string,
    utensilName: string,
    utensilId: int,
    quantity: int,
    borrowDate: int,
    dueDate: Option<int>,
    returned: bool,
    returnInfo: Option<ReturnInfo>,
    contact: Contact)

  /** One inventory line: `quantity` owned, `available` not on loan. */
  datatype Utensil = Utensil(id: int, name: string, category: string, quantity: int, available: int)

  /** Per-borrower statistics kept under the normalised name. */
  datatype Borrower = Borrower(
    name: string,
    creditScore: int,
    totalBorrowings: int,
    onTimeReturns: int,
    lateReturns: int,
    damagedItems: int,
    contact: Contact)

  datatype Settings = Settings(maxBorrowLimit: int)

  datatype State = State(
    utensils: seq<Utensil>,
    loans: seq<Loan>,
    borrowers: map<string, Borrower>,
    settings: Settings)

  /** The error dialogs the engine can raise, with the counts they report. */
  datatype Error =
    | EmptyName
    | NoSelection
    | LimitExceeded(current: int, limit: int)
    | InsufficientStock(utensilId: int)
    | UnknownUtensil(utensilId: int)
    | NotFound
    | CapacityViolation(borrowed: int)
    | ItemInUse(borrowed: int)

  /** How an action ended: committed, declined at the confirmation prompt, or refused. */
  datatype Status = Done | Declined | Failed(error: Error)

  /** The in-memory state after an action together with how it ended. A refused
      action may still have changed memory (see Registry.Borrow and Ledger.EditUtensil). */
  datatype Step = Step(state: State, status: Status)

  /** The inventory seeded when no utensil file exists, and the default limit of 5. */
  function InitialState(): State {
    State(
      [ Utensil(1, "Chef Knife", "Cutlery", 5, 5),
        Utensil(2, "Cutting Board", "Preparation", 8, 8),
        Utensil(3, "Mixing Bowl", "Cookware", 10, 10),
        Utensil(4, "Whisk", "Utensils", 6, 6),
        Utensil(5, "Spatula", "Utensils", 7, 7) ],
      [],
      map[],
      Settings(5))
  }
}

=== FILE: names.dfy ===
/**
 Borrower names are free text. Every lookup of a borrower (the stats directory,
 the active-unit count) compares names after `lower().strip()`. This module
 models that normalisation over ASCII: upper-case letters are lowered and the
 characters Python's `str.isspace` accepts below 128 are trimmed from both ends.
 */
module Names {

  /** The ASCII characters that `str.strip()` removes: space, \t \n \v \f \r and \x1c-\x1f. */
  predicate IsSpace(c: char) {
    c == ' ' || (9 <= c as int <= 13) || (28 <= c as int <= 31)
  }

  function LowerChar(c: char): (r: char)
    ensures IsSpace(r) <==> IsSpace(c)
    ensures !('A' <= r <= 'Z')
    ensures !('A' <= c <= 'Z') ==> r == c
    ensures 'A' <= c <= 'Z' ==> r as int == c as int + 32
  {
    if 'A' <= c <= 'Z' then (c as int + 32) as char else c
  }

  /** `str.lower()` restricted to ASCII letters. */
  function Lower(s: string): (r: string)
    ensures |r| == |s|
    ensures forall i :: 0 <= i < |s| ==> r[i] == LowerChar(s[i])
  {
    seq(|s|, i requires 0 <= i < |s| => LowerChar(s[i]))
  }

  /** Drops leading whitespace. */
  function TrimStart(s: string): string {
    if |s| > 0 && IsSpace(s[0]) then TrimStart(s[1..]) else s
  }

  /** Drops trailing whitespace. */
  function TrimEnd(s: string): string {
    if |s| > 0 && IsSpace(s[|s| - 1]) then TrimEnd(s[..|s| - 1]) else s
  }

  /** `str.strip()`: drops whitespace at both ends. */
  function Strip(s: string): string {
    TrimEnd(TrimStart(s))
  }

  /** The key under which a borrower is looked up: `name.lower().strip()`. */
  function Normalize(name: string): string {
    Strip(Lower(name))
  }

  /** TrimStart drops a prefix made only of blanks and keeps a suffix that starts
      with a non-blank, or nothing. */
  lemma {:induction false} TrimStartSpec(s: string)
    ensures |TrimStart(s)| <= |s| && TrimStart(s) == s[|s| - |TrimStart(s)|..]
    ensures forall i :: 0 <= i < |s| - |TrimStart(s)| ==> IsSpace(s[i])
    ensures TrimStart(s) == [] || !IsSpace(TrimStart(s)[0])
    decreases |s|
  {
    if |s| > 0 && IsSpace(s[0]) {
      TrimStartSpec(s[1..]);
    }
  }

  /** TrimEnd drops a suffix made only of blanks and keeps a prefix that ends
      with a non-blank, or nothing. */
  lemma {:induction false} TrimEndSpec(s: string)
    ensures |TrimEnd(s)| <= |s| && TrimEnd(s) == s[..|TrimEnd(s)|]
    ensures forall i :: |TrimEnd(s)| <= i < |s| ==> IsSpace(s[i])
    ensures TrimEnd(s) == [] || !IsSpace(TrimEnd(s)[|TrimEnd(s)| - 1])
    decreases |s|
  {
    if |s| > 0 && IsSpace(s[|s| - 1]) {
      TrimEndSpec(s[..|s| - 1]);
    }
  }

  /** Cutting a blank prefix and then a blank suffix leaves an infix whose
      surroundings are all blank and, when each cut went as far as it could, whose
      own ends are not. */
  lemma BlankInfix(s: string, t: string, r: string)
    requires |t| <= |s| && t == s[|s| - |t|..]
    requires forall i :: 0 <= i < |s| - |t| ==> IsSpace(s[i])
    requires |r| <= |t| && r == t[..|r|]
    requires forall i :: |r| <= i < |t| ==> IsSpace(t[i])
    requires t == [] || !IsSpace(t[0])
    requires r == [] || !IsSpace(r[|r| - 1])
    ensures var a := |s| - |t|;
      && 0 <= a && a + |r| <= |s|
      && r == s[a..a + |r|]
      && (forall i :: 0 <= i < a ==> IsSpace(s[i]))
      && (forall i :: a + |r| <= i < |s| ==> IsSpace(s[i]))
    ensures r == [] || (!IsSpace(r[0]) && !IsSpace(r[|r| - 1]))
  {
    var a := |s| - |t|;
    forall i | a + |r| <= i < |s|
      ensures IsSpace(s[i])
    {
      assert s[i] == t[i - a];
    }
  }

  /** A stripped string is what is left of `s` once the blanks at both ends, and
      only those, are removed: the infix starting at `a` whose surroundings are all
      blank and whose own ends are not. */
  lemma StripSpec(s: string)
    ensures |Strip(s)| <= |s|
    ensures var a := |s| - |TrimStart(s)|;
      && 0 <= a && a + |Strip(s)| <= |s|
      && Strip(s) == s[a..a + |Strip(s)|]
      && (forall i :: 0 <= i < a ==> IsSpace(s[i]))
      && (forall i :: a + |Strip(s)| <= i < |s| ==> IsSpace(s[i]))
    ensures Strip(s) == [] || (!IsSpace(Strip(s)[0]) && !IsSpace(Strip(s)[|Strip(s)| - 1]))
  {
    var t := TrimStart(s);
    var r := TrimEnd(t);
    TrimStartSpec(s);
    TrimEndSpec(t);
    BlankInfix(s, t, r);
  }

  lemma LowerIdempotent(s: string)
    ensures Lower(Lower(s)) == Lower(s)
  {
  }

  lemma {:induction false} LowerTrimStart(s: string)
    ensures Lower(TrimStart(s)) == TrimStart(Lower(s))
    decreases |s|
  {
    if |s| > 0 && IsSpace(s[0]) {
      assert Lower(s)[1..] == Lower(s[1..]);
      LowerTrimStart(s[1..]);
    }
  }

  lemma {:induction false} LowerTrimEnd(s: string)
    ensures Lower(TrimEnd(s)) == TrimEnd(Lower(s))
    decreases |s|
  {
    if |s| > 0 && IsSpace(s[|s| - 1]) {
      assert Lower(s)[..|s| - 1] == Lower(s[..|s| - 1]);
      LowerTrimEnd(s[..|s| - 1]);
    }
  }

  /** Lowering and stripping commute, because lowering never creates or removes whitespace. */
  lemma LowerStrip(s: string)
    ensures Lower(Strip(s)) == Strip(Lower(s))
  {
    LowerTrimStart(s);
    LowerTrimEnd(TrimStart(s));
  }

  /** Stripping a stripped name changes nothing. */
  lemma StripIdempotent(s: string)
    ensures Strip(Strip(s)) == Strip(s)
  {
    var r := Strip(s);
    StripSpec(s);
    assert TrimStart(r) == r;
    assert TrimEnd(r) == r;
  }

  /** A normalised name is its own key: storing a key and looking it up again agree. */
  lemma NormalizeIdempotent(s: string)
    ensures Normalize(Normalize(s)) == Normalize(s)
  {
    LowerStrip(Lower(s));
    LowerIdempotent(s);
    StripIdempotent(Lower(s));
  }

  /** Leading or trailing blanks typed around a name do not change the borrower it denotes. */
  lemma NormalizeIgnoresPadding(s: string)
    ensures Normalize(Strip(s)) == Normalize(s)
  {
    LowerStrip(s);
    StripIdempotent(Lower(s));
  }

  /** Case does not change the borrower a name denotes. */
  lemma NormalizeIgnoresCase(s: string)
    ensures Normalize(Lower(s)) == Normalize(s)
  {
    LowerIdempotent(s);
  }
}

=== FILE: policy.dfy ===
/**
 The pure decision functions the borrow and return actions consult: overdue
 classification, the late-penalty tiers, the score label, reading a score and
 counting a borrower's active units.
 */
module Policy {
  import opened Model
  import opened Clock
  import opened Names
  import opened Tally

  /** A loan is overdue when it is unreturned, has a due date, and `now` is past
      midnight at the start of that date. */
  predicate IsOverdue(l: Loan, now: int) {
    if l.returned then false
    else match l.dueDate
      case None => false
      case Some(due) => now > Midnight(due)
  }

  /** Whole days elapsed since the due date's midnight (`timedelta.days`), or 0 when not overdue. */
  function DaysOverdue(l: Loan, now: int): (n: int)
    ensures n >= 0
    ensures !IsOverdue(l, now) ==> n == 0
    ensures IsOverdue(l, now) ==> Midnight(l.dueDate.value + n) <= now < Midnight(l.dueDate.value + n + 1)
  {
    if !IsOverdue(l, now) then 0 else (now - Midnight(l.dueDate.value)) / SecondsPerDay
  }

  /** Returned loans and loans without a due date are never overdue. */
  lemma NeverOverdueWhenClosed(l: Loan, now: int)
    requires l.returned || l.dueDate.None?
    ensures !IsOverdue(l, now) && DaysOverdue(l, now) == 0
  {
  }

  /** Up to and including the due date's midnight an open loan is not overdue;
      from the next second on it is, already during the due day itself, with 0 whole days. */
  lemma OverdueFromDueDay(l: Loan, now: int)
    requires !l.returned && l.dueDate.Some?
    ensures Today(now) < l.dueDate.value ==> !IsOverdue(l, now)
    ensures now == Midnight(l.dueDate.value) ==> !IsOverdue(l, now)
    ensures (Today(now) == l.dueDate.value && now != Midnight(l.dueDate.value))
              ==> IsOverdue(l, now) && DaysOverdue(l, now) == 0
  {
  }

  /** After the due day, the whole days overdue are the calendar days between the two dates. */
  lemma DaysOverdueCountsCalendarDays(l: Loan, now: int)
    requires !l.returned && l.dueDate.Some?
    requires Today(now) > l.dueDate.value
    ensures IsOverdue(l, now)
    ensures DaysOverdue(l, now) == Today(now) - l.dueDate.value
  {
    var due := l.dueDate.value;
    var n := DaysOverdue(l, now);
    var t := Today(now);
    assert Midnight(due + n) <= now < Midnight(due + n + 1);
    assert Midnight(t) <= now < Midnight(t + 1);
  }

  /** The score deduction for a late return, by whole days late. */
  function LatePenalty(daysLate: int): (p: int)
    ensures -25 <= p <= -10
    ensures p == -10 <==> daysLate == 1
    ensures 2 <= daysLate <= 3 ==> p == -15
    ensures 4 <= daysLate <= 7 ==> p == -20
    ensures daysLate > 7 ==> p == -25
    ensures daysLate < 1 ==> p == -15
  {
    if daysLate == 1 then -10
    else if daysLate <= 3 then -15
    else if daysLate <= 7 then -20
    else -25
  }

  /** From one day late on, a later return never costs less. */
  lemma LatePenaltyMonotone(d1: int, d2: int)
    requires 1 <= d1 <= d2
    ensures LatePenalty(d2) <= LatePenalty(d1)
  {
  }

  /** The presentation label of a score. */
  function CreditScoreLabel(score: int): (r: string)
    ensures r == "Excellent" || r == "Fair" || r == "Poor"
    ensures r == "Excellent" <==> score >= 70
    ensures r == "Poor" <==> score < 40
  {
    if score >= 70 then "Excellent"
    else if score >= 40 then "Fair"
    else "Poor"
  }

  function LabelRank(tag: string): int {
    if tag == "Excellent" then 2 else if tag == "Fair" then 1 else 0
  }

  /** A higher score never gets a worse label. */
  lemma CreditScoreLabelMonotone(s1: int, s2: int)
    requires s1 <= s2
    ensures LabelRank(CreditScoreLabel(s1)) <= LabelRank(CreditScoreLabel(s2))
  {
  }

  /** Every borrower record holds a score in [0, 100]. */
  ghost predicate ScoresInRange(borrowers: map<string, Borrower>) {
    forall k :: k in borrowers ==> 0 <= borrowers[k].creditScore <= 100
  }

  /** A borrower's current score: the stored one, or 100 for a name never seen. */
  function CalculateCreditScore(borrowers: map<string, Borrower>, borrowerName: string): (score: int)
    ensures Normalize(borrowerName) !in borrowers ==> score == 100
    ensures Normalize(borrowerName) in borrowers ==> score == borrowers[Normalize(borrowerName)].creditScore
    ensures ScoresInRange(borrowers) ==> 0 <= score <= 100
  {
    var key := Normalize(borrowerName);
    if key !in borrowers then 100 else borrowers[key].creditScore
  }

  /** Units a borrower has out: unreturned loans whose normalised name matches. */
  function ActiveUnits(loans: seq<Loan>, borrowerName: string): int {
    Units(loans, ByBorrower(Normalize(borrowerName)))
  }

  /** The count as `get_active_borrowings_count` computes it, one record at a time. */
  method CountActiveBorrowings(loans: seq<Loan>, borrowerName: string) returns (count: int)
    ensures count == ActiveUnits(loans, borrowerName)
    ensures (forall i :: 0 <= i < |loans| ==> loans[i].quantity >= 0) ==> count >= 0
  {
    var key := Normalize(borrowerName);
    count := 0;
    var i := 0;
    while i < |loans|
      invariant 0 <= i <= |loans|
      invariant count == Units(loans[..i], ByBorrower(key))
    {
      var b := loans[i];
      assert loans[..i + 1][..i] == loans[..i];
      if Normalize(b.borrowerName) == key && !b.returned {
        count := count + b.quantity;
      }
      i := i + 1;
    }
    assert loans[..i] == loans;
    if forall j :: 0 <= j < |loans| ==> loans[j].quantity >= 0 {
      UnitsNonNegative(loans, ByBorrower(key));
    }
  }

  /** The active count does not depend on case or surrounding blanks in the typed name. */
  lemma ActiveUnitsIgnoresPadding(loans: seq<Loan>, borrowerName: string)
    ensures ActiveUnits(loans, Strip(borrowerName)) == ActiveUnits(loans, borrowerName)
    ensures ActiveUnits(loans, Lower(borrowerName)) == ActiveUnits(loans, borrowerName)
  {
    NormalizeIgnoresPadding(borrowerName);
    NormalizeIgnoresCase(borrowerName);
  }
}

=== FILE: registry.dfy ===
/**
 The loan registry: the borrow action (limit gate, per-line stock check, loan
 creation, stock decrement, scoring) and the return action (partial or full
 return, remainder record, stock increment, scoring).
 */
module Registry {
  import opened Model
  import opened Clock
  import opened Names
  import opened Tally
  import opened Policy
  import opened Scoring
  import opened Ledger

  /** One selected utensil and the quantity asked for it. */
  datatype Line = Line(utensilId: int, qty: int)

  /** One selected loan record (by position) and what the return form says about it. */
  datatype ReturnRequest = ReturnRequest(index: nat, qty: int, condition: Condition, notes: string)

  /** The spin boxes of the borrow form start at 1. */
  predicate PositiveLines(lines: seq<Line>) {
    forall i :: 0 <= i < |lines| ==> lines[i].qty >= 1
  }

  /** The units a batch asks for in all. */
  function TotalQty(lines: seq<Line>): int {
    if |lines| == 0 then 0 else lines[0].qty + TotalQty(lines[1..])
  }

  /** The record one accepted line creates: next id, due on the shared date, unreturned. */
  function NewLoan(loans: seq<Loan>, name: string, u: Utensil, qty: int, today: int, due: int, contact: Contact): Loan {
    Loan(|loans| + 1, name, u.name, u.id, qty, today, Some(due), false, None, contact)
  }

  /** One accepted line: append the record, take the units out of stock, score the borrow. */
  function BorrowLine(s: State, name: string, j: nat, qty: int, today: int, due: int, contact: Contact, now: int): State
    requires j < |s.utensils|
  {
    var l := NewLoan(s.loans, name, s.utensils[j], qty, today, due, contact);
    State(Reserve(s.utensils, j, qty), s.loans + [l], UpdateCreditScore(s.borrowers, name, l, now), s.settings)
  }

  /** The loop over the selected lines. A line whose utensil is missing or short of
      stock stops the loop; the lines before it stay applied. */
  function BorrowLines(s: State, name: string, lines: seq<Line>, today: int, due: int, contact: Contact, now: int)
    : (o: Step)
    requires PositiveLines(lines)
    ensures o.state.settings == s.settings
    ensures |s.loans| <= |o.state.loans| <= |s.loans| + |lines|
    ensures o.status == Done <==> |o.state.loans| == |s.loans| + |lines|
    ensures o.status != Done ==> o.status.Failed? && (o.status.error.InsufficientStock? || o.status.error.UnknownUtensil?)
    decreases |lines|
  {
    if |lines| == 0 then Step(s, Done)
    else
      var line := lines[0];
      match Find(s.utensils, ById(line.utensilId))
      case None => Step(s, Failed(UnknownUtensil(line.utensilId)))
      case Some(j) =>
        if line.qty > s.utensils[j].available then Step(s, Failed(InsufficientStock(line.utensilId)))
        else BorrowLines(BorrowLine(s, name, j, line.qty, today, due, contact, now), name, lines[1..], today, due, contact, now)
  }

  /** The loop stops at a line whose utensil id is not in the inventory. */
  lemma BorrowLinesUnknown(s: State, name: string, lines: seq<Line>, today: int, due: int, contact: Contact, now: int)
    requires PositiveLines(lines) && |lines| > 0 && Find(s.utensils, ById(lines[0].utensilId)).None?
    ensures BorrowLines(s, name, lines, today, due, contact, now) == Step(s, Failed(UnknownUtensil(lines[0].utensilId)))
  {
  }

  /** The loop stops at a line that asks for more than its utensil has available. */
  lemma BorrowLinesShort(s: State, name: string, lines: seq<Line>, j: nat, today: int, due: int, contact: Contact, now: int)
    requires PositiveLines(lines) && |lines| > 0
    requires Find(s.utensils, ById(lines[0].utensilId)) == Some(j) && lines[0].qty > s.utensils[j].available
    ensures BorrowLines(s, name, lines, today, due, contact, now) == Step(s, Failed(InsufficientStock(lines[0].utensilId)))
  {
  }

  /** The loop applies a line whose utensil has the units and goes on with the rest. */
  lemma BorrowLinesGoesOn(s: State, name: string, lines: seq<Line>, j: nat, today: int, due: int, contact: Contact, now: int)
    requires PositiveLines(lines) && |lines| > 0
    requires Find(s.utensils, ById(lines[0].utensilId)) == Some(j) && lines[0].qty <= s.utensils[j].available
    ensures BorrowLines(s, name, lines, today, due, contact, now)
         == BorrowLines(BorrowLine(s, name, j, lines[0].qty, today, due, contact, now), name, lines[1..], today, due, contact, now)
  {
  }

  /** A record issued for one borrow line: unreturned, in the borrower's (stripped)
      name and with the contact typed at the borrow screen, with the given id, today's
      borrow date, the shared due date, and the line's utensil (by id and by its name
      in `utensils`) and quantity. */
  predicate Issued(l: Loan, id: int, name: string, today: int, due: int, contact: Contact, utensils: seq<Utensil>, line: Line) {
    && l.id == id && l.borrowerName == name && !l.returned && l.contact == contact
    && l.borrowDate == today && l.dueDate == Some(due)
    && l.utensilId == line.utensilId && l.utensilName == NameOf(utensils, line.utensilId)
    && l.quantity == line.qty && l.returnInfo.None?
  }

  /** `after` is `before` followed by one record issued per line, in order, with
      consecutive ids. */
  predicate Appended(before: seq<Loan>, after: seq<Loan>, name: string, today: int, due: int, contact: Contact,
                     utensils: seq<Utensil>, lines: seq<Line>) {
    && |before| <= |after| <= |before| + |lines|
    && after[..|before|] == before
    && forall i :: |before| <= i < |after| ==> Issued(after[i], i + 1, name, today, due, contact, utensils, lines[i - |before|])
  }

  /** One accepted line appends exactly one record, issued for that line, and renames
      no utensil. */
  lemma BorrowLineIssues(s: State, name: string, j: nat, line: Line, today: int, due: int, contact: Contact, now: int)
    requires j < |s.utensils| && Find(s.utensils, ById(line.utensilId)) == Some(j)
    ensures var s1 := BorrowLine(s, name, j, line.qty, today, due, contact, now);
      && Appended(s.loans, s1.loans, name, today, due, contact, s.utensils, [line])
      && |s1.loans| == |s.loans| + 1
      && forall id :: NameOf(s1.utensils, id) == NameOf(s.utensils, id)
  {
    assert BorrowLine(s, name, j, line.qty, today, due, contact, now).loans
        == s.loans + [NewLoan(s.loans, name, s.utensils[j], line.qty, today, due, contact)];
    forall id {
      ReserveKeepsNames(s.utensils, j, line.qty, id);
    }
  }

  /** The record of the first line followed by the records of the rest of the batch
      are the records of the whole batch. */
  lemma AppendsCompose(base0: seq<Loan>, base1: seq<Loan>, loans: seq<Loan>, name: string, today: int, due: int,
                       contact: Contact, u0: seq<Utensil>, u1: seq<Utensil>, lines: seq<Line>)
    requires |lines| > 0 && |base1| == |base0| + 1
    requires forall id :: NameOf(u1, id) == NameOf(u0, id)
    requires Appended(base0, base1, name, today, due, contact, u0, [lines[0]])
    requires Appended(base1, loans, name, today, due, contact, u1, lines[1..])
    ensures Appended(base0, loans, name, today, due, contact, u0, lines)
  {
    assert loans[..|base0|] == loans[..|base1|][..|base0|];
    assert loans[|base0|] == base1[|base0|] by {
      assert loans[..|base1|][|base0|] == base1[|base0|];
    }
    forall i | |base0| <= i < |loans|
      ensures Issued(loans[i], i + 1, name, today, due, contact, u0, lines[i - |base0|])
    {
      if i > |base0| {
        assert lines[1..][i - |base1|] == lines[i - |base0|];
      }
    }
  }

  /** The records a batch appends: one per applied line, in order. */
  lemma {:induction false} BorrowLinesAppends(s: State, name: string, lines: seq<Line>, today: int, due: int, contact: Contact, now: int)
    requires PositiveLines(lines)
    ensures Appended(s.loans, BorrowLines(s, name, lines, today, due, contact, now).state.loans, name, today, due, contact, s.utensils, lines)
    decreases |lines|
  {
    if |lines| == 0 {
      assert s.loans[..|s.loans|] == s.loans;
    } else {
      var line := lines[0];
      match Find(s.utensils, ById(line.utensilId))
      case None =>
        assert BorrowLines(s, name, lines, today, due, contact, now).state.loans == s.loans;
        assert s.loans[..|s.loans|] == s.loans;
      case Some(j) =>
        if line.qty > s.utensils[j].available {
          assert BorrowLines(s, name, lines, today, due, contact, now).state.loans == s.loans;
          assert s.loans[..|s.loans|] == s.loans;
        } else {
          var s1 := BorrowLine(s, name, j, line.qty, today, due, contact, now);
          var o := BorrowLines(s1, name, lines[1..], today, due, contact, now);
          assert BorrowLines(s, name, lines, today, due, contact, now) == o;
          BorrowLineIssues(s, name, j, line, today, due, contact, now);
          BorrowLinesAppends(s1, name, lines[1..], today, due, contact, now);
          AppendsCompose(s.loans, s1.loans, o.state.loans, name, today, due, contact, s.utensils, s1.utensils, lines);
        }
    }
  }

  /** The borrower's active units grow by what the applied lines asked for: by
      at most the whole batch, and by exactly the whole batch when every line is applied. */
  lemma {:induction false} BorrowLinesActiveUnits(s: State, name: string, lines: seq<Line>, today: int, due: int, contact: Contact, now: int)
    requires PositiveLines(lines)
    ensures var o := BorrowLines(s, name, lines, today, due, contact, now);
      && ActiveUnits(o.state.loans, name) <= ActiveUnits(s.loans, name) + TotalQty(lines)
      && (o.status == Done ==> ActiveUnits(o.state.loans, name) == ActiveUnits(s.loans, name) + TotalQty(lines))
    decreases |lines|
  {
    if |lines| > 0 {
      var line := lines[0];
      TotalQtyCoversLines(lines);
      match Find(s.utensils, ById(line.utensilId))
      case None =>
        BorrowLinesUnknown(s, name, lines, today, due, contact, now);
      case Some(j) =>
        if line.qty <= s.utensils[j].available {
          var s1 := BorrowLine(s, name, j, line.qty, today, due, contact, now);
          BorrowLinesGoesOn(s, name, lines, j, today, due, contact, now);
          UnitsAppend(s.loans, s1.loans[|s.loans|], ByBorrower(Normalize(name)));
          BorrowLinesActiveUnits(s1, name, lines[1..], today, due, contact, now);
        } else {
          BorrowLinesShort(s, name, lines, j, today, due, contact, now);
        }
    }
  }

  lemma {:induction false} TotalQtyCoversLines(lines: seq<Line>)
    requires PositiveLines(lines)
    ensures TotalQty(lines) >= |lines|
    decreases |lines|
  {
    if |lines| > 0 {
      TotalQtyCoversLines(lines[1..]);
    }
  }

  /** An outcome `o` reached from `base` records that is not done stopped at the
      line after the applied ones: on a utensil id its inventory does not hold, or on
      a quantity above that utensil's availability. */
  predicate StoppedAt(o: Step, base: int, lines: seq<Line>) {
    var m := |o.state.loans| - base;
    o.status != Done ==>
      && 0 <= m < |lines|
      && var found := Find(o.state.utensils, ById(lines[m].utensilId));
         && (found.None? ==> o.status == Failed(UnknownUtensil(lines[m].utensilId)))
         && (found.Some? ==>
               && lines[m].qty > o.state.utensils[found.value].available
               && o.status == Failed(InsufficientStock(lines[m].utensilId)))
  }

  /** Stopping in the rest after one more record is stopping in the whole batch. */
  lemma StoppedAtShift(o: Step, base0: int, base1: int, lines: seq<Line>)
    requires |lines| > 0 && base1 == base0 + 1 && StoppedAt(o, base1, lines[1..])
    ensures StoppedAt(o, base0, lines)
  {
    if o.status != Done {
      assert lines[1..][|o.state.loans| - base1] == lines[|o.state.loans| - base0];
    }
  }

  /** Where the loop stops. With `m` lines applied, a batch that does not complete
      stopped at line `m`, on a utensil id the inventory does not hold or on a
      quantity above that utensil's availability as the earlier lines left it. */
  lemma {:induction false} BorrowLinesStops(s: State, name: string, lines: seq<Line>, today: int, due: int, contact: Contact, now: int)
    requires PositiveLines(lines)
    ensures StoppedAt(BorrowLines(s, name, lines, today, due, contact, now), |s.loans|, lines)
    decreases |lines|
  {
    if |lines| > 0 {
      var line := lines[0];
      match Find(s.utensils, ById(line.utensilId))
      case None =>
        BorrowLinesUnknown(s, name, lines, today, due, contact, now);
      case Some(j) =>
        if line.qty <= s.utensils[j].available {
          var s1 := BorrowLine(s, name, j, line.qty, today, due, contact, now);
          var o := BorrowLines(s1, name, lines[1..], today, due, contact, now);
          BorrowLinesGoesOn(s, name, lines, j, today, due, contact, now);
          assert |s1.loans| == |s.loans| + 1;
          BorrowLinesStops(s1, name, lines[1..], today, due, contact, now);
          StoppedAtShift(o, |s.loans|, |s1.loans|, lines);
        } else {
          BorrowLinesShort(s, name, lines, j, today, due, contact, now);
        }
    }
  }

  /** Every line names a utensil the inventory holds, with at least the line's
      quantity available, and no two lines name the same utensil. */
  predicate Stocked(utensils: seq<Utensil>, lines: seq<Line>) {
    && (forall i :: 0 <= i < |lines| ==>
          && Find(utensils, ById(lines[i].utensilId)).Some?
          && lines[i].qty <= utensils[Find(utensils, ById(lines[i].utensilId)).value].available)
    && (forall i, k :: 0 <= i < k < |lines| ==> lines[i].utensilId != lines[k].utensilId)
  }

  /** Serving the first of a stocked batch of distinct utensils leaves the rest stocked:
      it only touches the first line's utensil, which no later line names. */
  lemma StockedRest(utensils: seq<Utensil>, lines: seq<Line>, j: nat)
    requires |lines| > 0 && Stocked(utensils, lines)
    requires Find(utensils, ById(lines[0].utensilId)) == Some(j)
    ensures Stocked(Reserve(utensils, j, lines[0].qty), lines[1..])
  {
    var r := Reserve(utensils, j, lines[0].qty);
    assert forall k :: 0 <= k < |utensils| ==> r[k].id == utensils[k].id;
    forall i | 0 <= i < |lines| - 1
      ensures Find(r, ById(lines[1..][i].utensilId)).Some?
      ensures lines[1..][i].qty <= r[Find(r, ById(lines[1..][i].utensilId)).value].available
    {
      var id := lines[i + 1].utensilId;
      assert lines[1..][i] == lines[i + 1];
      FindByIdSameIds(utensils, r, id);
      var k := Find(utensils, ById(id)).value;
      assert id != lines[0].utensilId;
      assert k != j;
    }
    forall i, k | 0 <= i < k < |lines| - 1
      ensures lines[1..][i].utensilId != lines[1..][k].utensilId
    {
      assert lines[1..][i] == lines[i + 1] && lines[1..][k] == lines[k + 1];
    }
  }

  /** A batch of distinct existing utensils, each asked for no more than it has in
      stock, is served in full. */
  lemma {:induction false} BorrowLinesCompletes(s: State, name: string, lines: seq<Line>, today: int, due: int, contact: Contact, now: int)
    requires PositiveLines(lines) && Stocked(s.utensils, lines)
    ensures BorrowLines(s, name, lines, today, due, contact, now).status == Done
    decreases |lines|
  {
    if |lines| > 0 {
      var line := lines[0];
      var j := Find(s.utensils, ById(line.utensilId)).value;
      var s1 := BorrowLine(s, name, j, line.qty, today, due, contact, now);
      var o := BorrowLines(s1, name, lines[1..], today, due, contact, now);
      assert BorrowLines(s, name, lines, today, due, contact, now) == o;
      StockedRest(s.utensils, lines, j);
      BorrowLinesCompletes(s1, name, lines[1..], today, due, contact, now);
    }
  }

  /** Taking `l.quantity` units from the first utensil with `l`'s id lowers that
      utensil's availability by `l`'s share and no other utensil's. */
  lemma ReserveShare(utensils: seq<Utensil>, j: nat, l: Loan, i: nat)
    requires j < |utensils| && i < |utensils|
    requires Find(utensils, ById(utensils[j].id)) == Some(j)
    requires l.utensilId == utensils[j].id && !l.returned
    ensures Reserve(utensils, j, l.quantity)[i].available
            == utensils[i].available
               - (if Find(utensils, ById(utensils[i].id)) == Some(i) then Share(l, ByUtensil(utensils[i].id)) else 0)
  {
  }

  /** `after` is `before` with only availabilities changed: each utensil that is the
      first with its id loses the units the records `taken` hold of it, and a utensil
      shadowed by an earlier one with the same id is not touched. */
  predicate Drawn(before: seq<Utensil>, after: seq<Utensil>, taken: seq<Loan>) {
    && |after| == |before|
    && (forall i :: 0 <= i < |before| ==> after[i] == before[i].(available := after[i].available))
    && (forall i :: 0 <= i < |before| ==>
          after[i].available == before[i].available
            - (if Find(before, ById(before[i].id)) == Some(i) then Units(taken, ByUtensil(before[i].id)) else 0))
  }

  /** One applied line appends its record and takes its units from the utensil it names. */
  lemma BorrowLineStock(s: State, name: string, j: nat, qty: int, today: int, due: int, contact: Contact, now: int)
    requires j < |s.utensils| && Find(s.utensils, ById(s.utensils[j].id)) == Some(j)
    ensures var s1 := BorrowLine(s, name, j, qty, today, due, contact, now);
      var l := NewLoan(s.loans, name, s.utensils[j], qty, today, due, contact);
      s1.loans == s.loans + [l] && Drawn(s.utensils, s1.utensils, [l])
  {
    var l := NewLoan(s.loans, name, s.utensils[j], qty, today, due, contact);
    assert [l][..0] == [];
    forall i | 0 <= i < |s.utensils|
      ensures Reserve(s.utensils, j, qty)[i].available == s.utensils[i].available
              - (if Find(s.utensils, ById(s.utensils[i].id)) == Some(i) then Units([l], ByUtensil(s.utensils[i].id)) else 0)
    {
      ReserveShare(s.utensils, j, l, i);
    }
  }

  /** Drawing for one record and then for the rest, at one utensil. */
  lemma DrawnComposeAt(u0: seq<Utensil>, u1: seq<Utensil>, u2: seq<Utensil>, l: Loan, rest: seq<Loan>, i: nat)
    requires |u1| == |u0| && |u2| == |u1| && i < |u0|
    requires forall k :: 0 <= k < |u0| ==> u1[k].id == u0[k].id
    requires u1[i].available == u0[i].available
               - (if Find(u0, ById(u0[i].id)) == Some(i) then Units([l], ByUtensil(u0[i].id)) else 0)
    requires u2[i].available == u1[i].available
               - (if Find(u1, ById(u1[i].id)) == Some(i) then Units(rest, ByUtensil(u1[i].id)) else 0)
    ensures u2[i].available == u0[i].available
              - (if Find(u0, ById(u0[i].id)) == Some(i) then Units([l] + rest, ByUtensil(u0[i].id)) else 0)
  {
    FindByIdSameIds(u0, u1, u0[i].id);
    UnitsCons(l, rest, ByUtensil(u0[i].id));
    assert [l][..0] == [];
  }

  /** Drawing for one record and then for the rest is drawing for all of them: the
      ids, and so the first match of each id, never move. */
  lemma DrawnCompose(u0: seq<Utensil>, u1: seq<Utensil>, u2: seq<Utensil>, l: Loan, rest: seq<Loan>)
    requires Drawn(u0, u1, [l]) && Drawn(u1, u2, rest)
    ensures Drawn(u0, u2, [l] + rest)
  {
    assert forall k :: 0 <= k < |u0| ==> u1[k].id == u0[k].id;
    forall i | 0 <= i < |u0|
      ensures u2[i].available == u0[i].available
                - (if Find(u0, ById(u0[i].id)) == Some(i) then Units([l] + rest, ByUtensil(u0[i].id)) else 0)
    {
      DrawnComposeAt(u0, u1, u2, l, rest, i);
    }
  }

  /** The records appended after `base1 == base0 + [l]` are `l` followed by the rest. */
  lemma AppendedTail(base0: seq<Loan>, base1: seq<Loan>, l: Loan, loans: seq<Loan>)
    requires base1 == base0 + [l] && |base1| <= |loans| && loans[..|base1|] == base1
    ensures loans[|base0|..] == [l] + loans[|base1|..]
  {
    assert loans[|base0|] == loans[..|base1|][|base0|];
  }

  /** What a batch does to stock: ids, names, categories and totals stay, and each
      utensil's availability drops by exactly the units of the appended records that
      name it (an id shadowed by an earlier utensil with the same id is never touched). */
  lemma {:induction false} BorrowLinesStock(s: State, name: string, lines: seq<Line>, today: int, due: int, contact: Contact, now: int)
    requires PositiveLines(lines)
    ensures var o := BorrowLines(s, name, lines, today, due, contact, now).state;
      Drawn(s.utensils, o.utensils, o.loans[|s.loans|..])
    decreases |lines|
  {
    if |lines| == 0 {
      assert BorrowLines(s, name, lines, today, due, contact, now).state.loans[|s.loans|..] == [];
    } else {
      var line := lines[0];
      match Find(s.utensils, ById(line.utensilId))
      case None =>
        assert BorrowLines(s, name, lines, today, due, contact, now).state == s;
        assert s.loans[|s.loans|..] == [];
      case Some(j) =>
        if line.qty > s.utensils[j].available {
          assert BorrowLines(s, name, lines, today, due, contact, now).state == s;
          assert s.loans[|s.loans|..] == [];
        } else {
          var s1 := BorrowLine(s, name, j, line.qty, today, due, contact, now);
          var o := BorrowLines(s1, name, lines[1..], today, due, contact, now).state;
          assert BorrowLines(s, name, lines, today, due, contact, now).state == o;
          var l := NewLoan(s.loans, name, s.utensils[j], line.qty, today, due, contact);
          BorrowLineStock(s, name, j, line.qty, today, due, contact, now);
          BorrowLinesStock(s1, name, lines[1..], today, due, contact, now);
          BorrowLinesAppends(s1, name, lines[1..], today, due, contact, now);
          AppendedTail(s.loans, s1.loans, l, o.loans);
          DrawnCompose(s.utensils, s1.utensils, o.utensils, l, o.loans[|s1.loans|..]);
        }
    }
  }

  /** `after` is the directory `before` after the borrowings that took the record
      count from `base` to `len`, all by the borrower filed under `key`, whose record
      was `prior`: no change when there were none, otherwise that record with that many
      more borrowings; every other key is kept with its record. */
  ghost predicate Bumped(before: map<string, Borrower>, after: map<string, Borrower>, key: string, prior: Borrower, base: int, len: int) {
    var m := len - base;
    && (m == 0 ==> after == before)
    && (m > 0 ==> key in after && after[key] == prior.(totalBorrowings := prior.totalBorrowings + m))
    && (forall k :: k != key ==> (k in after <==> k in before))
    && (forall k :: k != key && k in before ==> after[k] == before[k])
  }

  /** One applied line appends one record and adds one borrowing to the borrower's record. */
  lemma BorrowLineBumps(s: State, name: string, j: nat, qty: int, today: int, due: int, contact: Contact, now: int)
    requires j < |s.utensils|
    ensures var s1 := BorrowLine(s, name, j, qty, today, due, contact, now);
      var prior := Prior(s.borrowers, name, contact);
      && |s1.loans| == |s.loans| + 1
      && Bumped(s.borrowers, s1.borrowers, Normalize(name), prior, |s.loans|, |s1.loans|)
      && Prior(s1.borrowers, name, contact) == prior.(totalBorrowings := prior.totalBorrowings + 1)
  {
  }

  /** One borrowing and then some more add up. */
  lemma BumpedCompose(b0: map<string, Borrower>, b1: map<string, Borrower>, b2: map<string, Borrower>,
                      key: string, prior: Borrower, base0: int, base1: int, len: int)
    requires base1 == base0 + 1 && base1 <= len
    requires Bumped(b0, b1, key, prior, base0, base1)
    requires Bumped(b1, b2, key, prior.(totalBorrowings := prior.totalBorrowings + 1), base1, len)
    ensures Bumped(b0, b2, key, prior, base0, len)
  {
  }

  /** What a batch does to the borrower directory: each applied line adds one
      borrowing to the borrower's record (created on first use), and no other record
      changes. */
  lemma {:induction false} BorrowLinesDirectory(s: State, name: string, lines: seq<Line>, today: int, due: int, contact: Contact, now: int)
    requires PositiveLines(lines)
    ensures var o := BorrowLines(s, name, lines, today, due, contact, now).state;
      Bumped(s.borrowers, o.borrowers, Normalize(name), Prior(s.borrowers, name, contact), |s.loans|, |o.loans|)
    decreases |lines|
  {
    if |lines| > 0 {
      var line := lines[0];
      match Find(s.utensils, ById(line.utensilId))
      case None =>
        BorrowLinesUnknown(s, name, lines, today, due, contact, now);
      case Some(j) =>
        if line.qty > s.utensils[j].available {
          BorrowLinesShort(s, name, lines, j, today, due, contact, now);
        } else {
          var s1 := BorrowLine(s, name, j, line.qty, today, due, contact, now);
          var o := BorrowLines(s1, name, lines[1..], today, due, contact, now).state;
          BorrowLinesGoesOn(s, name, lines, j, today, due, contact, now);
          BorrowLineBumps(s, name, j, line.qty, today, due, contact, now);
          BorrowLinesDirectory(s1, name, lines[1..], today, due, contact, now);
          BorrowLinesAppends(s1, name, lines[1..], today, due, contact, now);
          BumpedCompose(s.borrowers, s1.borrowers, o.borrowers, Normalize(name), Prior(s.borrowers, name, contact),
                        |s.loans|, |s1.loans|, |o.loans|);
        }
    }
  }

  /** `process_borrow`: name and selection checks, the limit gate, then the line loop
      with every line due `dueDays` days after today. */
  function Borrow(s: State, rawName: string, lines: seq<Line>, dueDays: int, contact: Contact, now: int): (o: Step)
    requires PositiveLines(lines)
    ensures Strip(rawName) == [] ==> o == Step(s, Failed(EmptyName))
    ensures Strip(rawName) != [] && lines == [] ==> o == Step(s, Failed(NoSelection))
    ensures Strip(rawName) != [] && lines != [] &&
            ActiveUnits(s.loans, rawName) + TotalQty(lines) > s.settings.maxBorrowLimit ==>
              o == Step(s, Failed(LimitExceeded(ActiveUnits(s.loans, rawName), s.settings.maxBorrowLimit)))
    ensures Strip(rawName) != [] && lines != [] &&
            ActiveUnits(s.loans, rawName) + TotalQty(lines) <= s.settings.maxBorrowLimit ==>
              o == BorrowLines(s, Strip(rawName), lines, Today(now), Today(now) + dueDays, contact, now)
    ensures o.status == Done <==> lines != [] && |o.state.loans| == |s.loans| + |lines|
    ensures o.state.settings == s.settings
  {
    var name := Strip(rawName);
    if name == [] then Step(s, Failed(EmptyName))
    else if lines == [] then Step(s, Failed(NoSelection))
    else
      var active := ActiveUnits(s.loans, name);
      ActiveUnitsIgnoresPadding(s.loans, rawName);
      if active + TotalQty(lines) > s.settings.maxBorrowLimit then
        Step(s, Failed(LimitExceeded(active, s.settings.maxBorrowLimit)))
      else
        BorrowLines(s, name, lines, Today(now), Today(now) + dueDays, contact, now)
  }

  /** A batch that passed the gate cannot take the borrower past the limit. */
  lemma GateKeepsLimit(s: State, rawName: string, lines: seq<Line>, today: int, due: int, contact: Contact, now: int)
    requires PositiveLines(lines)
    requires ActiveUnits(s.loans, rawName) + TotalQty(lines) <= s.settings.maxBorrowLimit
    ensures ActiveUnits(BorrowLines(s, Strip(rawName), lines, today, due, contact, now).state.loans, rawName)
            <= s.settings.maxBorrowLimit
  {
    var name := Strip(rawName);
    ActiveUnitsIgnoresPadding(s.loans, rawName);
    BorrowLinesActiveUnits(s, name, lines, today, due, contact, now);
    ActiveUnitsIgnoresPadding(BorrowLines(s, name, lines, today, due, contact, now).state.loans, rawName);
  }

  /** The gate's promise: whenever a borrow creates any record, the borrower's
      active units afterwards are within the configured limit. */
  lemma BorrowWithinLimit(s: State, rawName: string, lines: seq<Line>, dueDays: int, contact: Contact, now: int)
    requires PositiveLines(lines)
    ensures var o := Borrow(s, rawName, lines, dueDays, contact, now);
      |o.state.loans| > |s.loans| ==> ActiveUnits(o.state.loans, rawName) <= s.settings.maxBorrowLimit
  {
    var o := Borrow(s, rawName, lines, dueDays, contact, now);
    if Strip(rawName) != [] && lines != [] && ActiveUnits(s.loans, rawName) + TotalQty(lines) <= s.settings.maxBorrowLimit {
      GateKeepsLimit(s, rawName, lines, Today(now), Today(now) + dueDays, contact, now);
    } else {
      assert o.state == s;
    }
  }

  /** What the return form may select: an unreturned record, and 1 to its quantity. */
  predicate Returnable(loans: seq<Loan>, k: nat, qty: int) {
    k < |loans| && !loans[k].returned && 1 <= qty <= loans[k].quantity
  }

  /** The record spawned for the units a partial return leaves out. */
  function Remainder(loans: seq<Loan>, l: Loan, rest: int): Loan {
    Loan(|loans| + 1, l.borrowerName, l.utensilName, l.utensilId, rest, l.borrowDate, l.dueDate, false, None, l.contact)
  }

  /** The records after closing the one at `k` with `qty` units and `info`: a partial
      return first appends the remainder record. */
  function CloseRecord(loans: seq<Loan>, k: nat, qty: int, info: ReturnInfo): seq<Loan>
    requires Returnable(loans, k, qty)
  {
    var l := loans[k];
    var spawned := if qty < l.quantity then loans + [Remainder(loans, l, l.quantity - qty)] else loans;
    spawned[k := l.(returned := true, quantity := qty, returnInfo := Some(info))]
  }

  /** One iteration of `process_return` on the record at position `k`. */
  function ReturnLoan(s: State, k: nat, qty: int, cond: Condition, notes: string, now: int): (r: State)
    requires Returnable(s.loans, k, qty)
    ensures r.settings == s.settings
    ensures qty < s.loans[k].quantity ==> |r.loans| == |s.loans| + 1
    ensures qty == s.loans[k].quantity ==> |r.loans| == |s.loans|
    ensures forall j :: 0 <= j < |s.loans| && j != k ==> r.loans[j] == s.loans[j]
    ensures r.loans[k] == s.loans[k].(returned := true, quantity := qty,
                                      returnInfo := Some(ReturnInfo(Today(now), cond, notes, qty)))
    ensures qty < s.loans[k].quantity ==>
              var rest := r.loans[|s.loans|];
              && rest.id == |s.loans| + 1 && !rest.returned
              && rest.quantity == s.loans[k].quantity - qty
              && rest.borrowerName == s.loans[k].borrowerName && rest.contact == s.loans[k].contact
              && rest.utensilId == s.loans[k].utensilId && rest.utensilName == s.loans[k].utensilName
              && rest.borrowDate == s.loans[k].borrowDate && rest.dueDate == s.loans[k].dueDate
              && rest.returnInfo.None?
  {
    var l := s.loans[k];
    var loans := CloseRecord(s.loans, k, qty, ReturnInfo(Today(now), cond, notes, qty));
    State(Release(s.utensils, l.utensilId, qty), loans,
          UpdateCreditScore(s.borrowers, l.borrowerName, loans[k], now), s.settings)
  }

  /** What a return does to stock: the first utensil with the record's id gets the
      returned units back, and nothing else in the inventory changes. */
  lemma ReturnRestocks(s: State, k: nat, qty: int, cond: Condition, notes: string, now: int)
    requires Returnable(s.loans, k, qty)
    ensures var u := ReturnLoan(s, k, qty, cond, notes, now).utensils;
      var found := Find(s.utensils, ById(s.loans[k].utensilId));
      && |u| == |s.utensils|
      && (forall i :: 0 <= i < |s.utensils| && found != Some(i) ==> u[i] == s.utensils[i])
      && (found.Some? ==> u[found.value] == s.utensils[found.value].(available := s.utensils[found.value].available + qty))
  {
  }

  /** Whatever the clock says, a return is scored for the borrower by the on-time
      return rules applied to the record after its borrowing count moves: one more
      borrowing and one more on-time return, no late return, one more damaged item
      exactly when the item comes back damaged or lost, and no other borrower touched. */
  lemma ReturnCountsOnTime(s: State, k: nat, qty: int, cond: Condition, notes: string, now: int)
    requires Returnable(s.loans, k, qty)
    ensures var key := Normalize(s.loans[k].borrowerName);
      var before := Prior(s.borrowers, s.loans[k].borrowerName, s.loans[k].contact);
      var after := ReturnLoan(s, k, qty, cond, notes, now).borrowers;
      && key in after
      && after[key] == ScoreReturn(before.(totalBorrowings := before.totalBorrowings + 1), false, 0, cond)
      && after[key].totalBorrowings == before.totalBorrowings + 1
      && after[key].onTimeReturns == before.onTimeReturns + 1
      && after[key].lateReturns == before.lateReturns
      && after[key].damagedItems == before.damagedItems + (if IsDamagedOrLost(cond) then 1 else 0)
      && (forall n :: n in s.borrowers && n != key ==> after[n] == s.borrowers[n])
  {
  }

  /** The borrower's score after a return, in closed form from the score before it:
      +5, then -50 for a damaged or lost item or +2 for an excellent one, then +25 when
      this return completes a clean tenth event, clamped to [0, 100]. */
  lemma ReturnScore(s: State, k: nat, qty: int, cond: Condition, notes: string, now: int)
    requires Returnable(s.loans, k, qty) && DirectoryValid(s.borrowers)
    ensures var key := Normalize(s.loans[k].borrowerName);
      var before := Prior(s.borrowers, s.loans[k].borrowerName, s.loans[k].contact);
      var after := ReturnLoan(s, k, qty, cond, notes, now).borrowers;
      && key in after
      && after[key].creditScore ==
           if IsDamagedOrLost(cond) then Floor0(Cap100(before.creditScore + 5) - 50)
           else
             var milestone := before.totalBorrowings + 1 == MilestoneBorrowings && before.lateReturns == 0 && before.damagedItems == 0;
             Cap100(before.creditScore + (if cond == Excellent then 7 else 5) + (if milestone then 25 else 0))
  {
    var l := s.loans[k];
    var before := Prior(s.borrowers, l.borrowerName, l.contact);
    assert ValidBorrower(before);
    ReturnCountsOnTime(s, k, qty, cond, notes, now);
    OnTimeReturnScore(before.(totalBorrowings := before.totalBorrowings + 1), 0, cond);
  }

  /** The return form's selection: every request returnable, no record selected twice. */
  predicate ValidReturns(loans: seq<Loan>, reqs: seq<ReturnRequest>) {
    && (forall i :: 0 <= i < |reqs| ==> Returnable(loans, reqs[i].index, reqs[i].qty))
    && (forall i, j :: 0 <= i < j < |reqs| ==> reqs[i].index != reqs[j].index)
  }

  predicate Requested(reqs: seq<ReturnRequest>, k: nat) {
    exists i :: 0 <= i < |reqs| && reqs[i].index == k
  }

  /** The loop over the selected records, each processed in turn. */
  function ReturnAll(s: State, reqs: seq<ReturnRequest>, now: int): (r: State)
    requires ValidReturns(s.loans, reqs)
    ensures r.settings == s.settings
    ensures |r.loans| >= |s.loans|
    decreases |reqs|
  {
    if |reqs| == 0 then s
    else
      var q := reqs[0];
      var s1 := ReturnLoan(s, q.index, q.qty, q.condition, q.notes, now);
      ReturnKeepsOthersReturnable(s, reqs, now);
      ReturnAll(s1, reqs[1..], now)
  }

  /** After the first request is processed the rest of the selection is still valid. */
  lemma ReturnKeepsOthersReturnable(s: State, reqs: seq<ReturnRequest>, now: int)
    requires ValidReturns(s.loans, reqs) && |reqs| > 0
    ensures ValidReturns(ReturnLoan(s, reqs[0].index, reqs[0].qty, reqs[0].condition, reqs[0].notes, now).loans, reqs[1..])
  {
    var s1 := ReturnLoan(s, reqs[0].index, reqs[0].qty, reqs[0].condition, reqs[0].notes, now);
    forall i | 0 <= i < |reqs| - 1
      ensures Returnable(s1.loans, reqs[1..][i].index, reqs[1..][i].qty)
    {
      assert reqs[1..][i] == reqs[i + 1];
      assert Returnable(s.loans, reqs[i + 1].index, reqs[i + 1].qty);
    }
  }

  /** `after` keeps every record of `before` that no request names. */
  predicate Kept(before: seq<Loan>, after: seq<Loan>, reqs: seq<ReturnRequest>) {
    && |before| <= |after|
    && forall j :: 0 <= j < |before| && !Requested(reqs, j) ==> after[j] == before[j]
  }

  /** `l` is closed as request `q` says: returned, with the returned quantity, and
      with today's return date, condition and notes. */
  predicate ClosedAs(l: Loan, q: ReturnRequest, now: int) {
    && l.returned
    && l.quantity == q.qty
    && l.returnInfo == Some(ReturnInfo(Today(now), q.condition, q.notes, q.qty))
  }

  /** In `after` every requested record is closed as its request says. */
  predicate Closed(after: seq<Loan>, reqs: seq<ReturnRequest>, now: int) {
    forall i :: 0 <= i < |reqs| ==> reqs[i].index < |after| && ClosedAs(after[reqs[i].index], reqs[i], now)
  }

  /** A record no request names is left alone by the first request and by the rest. */
  lemma KeptCompose(l0: seq<Loan>, l1: seq<Loan>, l2: seq<Loan>, reqs: seq<ReturnRequest>)
    requires |reqs| > 0 && |l0| <= |l1|
    requires forall j :: 0 <= j < |l0| && j != reqs[0].index ==> l1[j] == l0[j]
    requires Kept(l1, l2, reqs[1..])
    ensures Kept(l0, l2, reqs)
  {
    forall j | 0 <= j < |l0| && !Requested(reqs, j)
      ensures l2[j] == l0[j]
    {
      assert j != reqs[0].index;
      assert !Requested(reqs[1..], j) by {
        forall i | 0 <= i < |reqs| - 1
          ensures reqs[1..][i].index != j
        {
          assert reqs[1..][i] == reqs[i + 1];
        }
      }
    }
  }

  /** The first request's record, closed first, is left alone by the rest, which no
      other request names; so the whole selection is closed. */
  lemma ClosedCompose(l0: seq<Loan>, l1: seq<Loan>, l2: seq<Loan>, reqs: seq<ReturnRequest>, now: int)
    requires |reqs| > 0 && ValidReturns(l0, reqs)
    requires var q := reqs[0];
      && |l0| <= |l1|
      && l1[q.index] == l0[q.index].(returned := true, quantity := q.qty,
                                     returnInfo := Some(ReturnInfo(Today(now), q.condition, q.notes, q.qty)))
    requires Kept(l1, l2, reqs[1..]) && Closed(l2, reqs[1..], now)
    ensures Closed(l2, reqs, now)
  {
    var q := reqs[0];
    assert !Requested(reqs[1..], q.index) by {
      forall i | 0 <= i < |reqs| - 1
        ensures reqs[1..][i].index != q.index
      {
        assert reqs[1..][i] == reqs[i + 1];
      }
    }
    forall i | 1 <= i < |reqs|
      ensures reqs[i] == reqs[1..][i - 1]
    {
    }
  }

  /** Every record the selection does not name is left as it was. */
  lemma {:induction false} ReturnAllKeeps(s: State, reqs: seq<ReturnRequest>, now: int)
    requires ValidReturns(s.loans, reqs)
    ensures Kept(s.loans, ReturnAll(s, reqs, now).loans, reqs)
    decreases |reqs|
  {
    if |reqs| > 0 {
      var q := reqs[0];
      var s1 := ReturnLoan(s, q.index, q.qty, q.condition, q.notes, now);
      ReturnKeepsOthersReturnable(s, reqs, now);
      ReturnAllKeeps(s1, reqs[1..], now);
      assert ReturnAll(s, reqs, now) == ReturnAll(s1, reqs[1..], now);
      KeptCompose(s.loans, s1.loans, ReturnAll(s1, reqs[1..], now).loans, reqs);
    }
  }

  /** Every selected record ends up returned with its own quantity and return fields. */
  lemma {:induction false} ReturnAllCloses(s: State, reqs: seq<ReturnRequest>, now: int)
    requires ValidReturns(s.loans, reqs)
    ensures Closed(ReturnAll(s, reqs, now).loans, reqs, now)
    decreases |reqs|
  {
    if |reqs| > 0 {
      var q := reqs[0];
      var s1 := ReturnLoan(s, q.index, q.qty, q.condition, q.notes, now);
      ReturnKeepsOthersReturnable(s, reqs, now);
      ReturnAllKeeps(s1, reqs[1..], now);
      ReturnAllCloses(s1, reqs[1..], now);
      assert ReturnAll(s, reqs, now) == ReturnAll(s1, reqs[1..], now);
      ClosedCompose(s.loans, s1.loans, ReturnAll(s1, reqs[1..], now).loans, reqs, now);
    }
  }

  /** `process_return`: refuses an empty selection, otherwise processes every record. */
  function ReturnBatch(s: State, reqs: seq<ReturnRequest>, now: int): (o: Step)
    requires ValidReturns(s.loans, reqs)
    ensures reqs == [] <==> o == Step(s, Failed(NoSelection))
    ensures reqs != [] ==> o.status == Done && o.state == ReturnAll(s, reqs, now)
  {
    if reqs == [] then Step(s, Failed(NoSelection)) else Step(ReturnAll(s, reqs, now), Done)
  }
}

=== FILE: scoring.dfy ===
/**
 `update_credit_score`: the borrower statistics update the engine runs after
 every loan line it creates and after every loan record it closes.
 */
module Scoring {
  import opened Model
  import opened Names
  import opened Policy

  const InitialScore: int := 100
  const MilestoneBorrowings: int := 10

  /** `max(0, x)` */
  function Floor0(x: int): int { if x < 0 then 0 else x }

  /** `min(100, x)` */
  function Cap100(x: int): int { if x > 100 then 100 else x }

  /** The record created the first time a borrower is scored. */
  function Fresh(name: string, contact: Contact): Borrower {
    Borrower(name, InitialScore, 0, 0, 0, 0, contact)
  }

  /** What the counters of a borrower can be: a score in range, and every
      closed-record counter bounded by the events that feed it. */
  predicate ValidBorrower(b: Borrower) {
    && 0 <= b.creditScore <= 100
    && 0 <= b.onTimeReturns && 0 <= b.lateReturns && 0 <= b.damagedItems
    && b.onTimeReturns + b.lateReturns <= b.totalBorrowings
    && b.damagedItems <= b.onTimeReturns + b.lateReturns
  }

  predicate IsDamagedOrLost(c: Condition) {
    c == Damaged || c == Lost
  }

  /** The condition a record was returned in; a record without one reads as Good. */
  function ReturnCondition(l: Loan): Condition {
    match l.returnInfo
    case None => Good
    case Some(info) => info.condition
  }

  /** The score rules for a returned record: the lateness adjustment, then the
      condition adjustment, then the perfect-record milestone. */
  function ScoreReturn(b: Borrower, overdue: bool, daysLate: int, cond: Condition): (r: Borrower)
    ensures ValidBorrower(b) && b.onTimeReturns + b.lateReturns < b.totalBorrowings ==> ValidBorrower(r)
    ensures r.name == b.name && r.contact == b.contact && r.totalBorrowings == b.totalBorrowings
    ensures overdue ==> r.lateReturns == b.lateReturns + 1 && r.onTimeReturns == b.onTimeReturns
    ensures !overdue ==> r.onTimeReturns == b.onTimeReturns + 1 && r.lateReturns == b.lateReturns
    ensures r.damagedItems == b.damagedItems + (if IsDamagedOrLost(cond) then 1 else 0)
    ensures 0 <= b.creditScore <= 100 ==> 0 <= r.creditScore <= 100
    ensures overdue && 0 <= b.creditScore && 0 <= b.lateReturns ==> r.creditScore <= if b.creditScore >= 10 then b.creditScore - 8 else 2
    ensures IsDamagedOrLost(cond) && b.creditScore <= 100 && 0 <= b.damagedItems ==> r.creditScore <= 50
  {
    var b1 :=
      if overdue then
        b.(lateReturns := b.lateReturns + 1, creditScore := Floor0(b.creditScore + LatePenalty(daysLate)))
      else
        b.(onTimeReturns := b.onTimeReturns + 1, creditScore := Cap100(b.creditScore + 5));
    var b2 :=
      if IsDamagedOrLost(cond) then
        b1.(damagedItems := b1.damagedItems + 1, creditScore := Floor0(b1.creditScore - 50))
      else if cond == Excellent then
        b1.(creditScore := Cap100(b1.creditScore + 2))
      else b1;
    if b2.totalBorrowings == MilestoneBorrowings && b2.lateReturns == 0 && b2.damagedItems == 0 then
      b2.(creditScore := Cap100(b2.creditScore + 25))
    else b2
  }

  /** The record a borrower is scored from: the stored one, or a fresh one. */
  function Prior(borrowers: map<string, Borrower>, borrowerName: string, contact: Contact): Borrower {
    var key := Normalize(borrowerName);
    if key in borrowers then borrowers[key] else Fresh(borrowerName, contact)
  }

  /** Every stored record is valid and stored under its own normalised key. */
  ghost predicate DirectoryValid(borrowers: map<string, Borrower>) {
    forall k :: k in borrowers ==> ValidBorrower(borrowers[k]) && Normalize(k) == k
  }

  /** One scoring event on a borrower record: the borrowing counter always
      moves; the return rules apply only when the record is already returned. */
  function ScoreEvent(prior: Borrower, l: Loan, now: int): (r: Borrower)
    ensures r.name == prior.name && r.contact == prior.contact
    ensures r.totalBorrowings == prior.totalBorrowings + 1
    ensures !l.returned ==> r == prior.(totalBorrowings := prior.totalBorrowings + 1)
    ensures l.returned ==>
              && r.onTimeReturns == prior.onTimeReturns + 1
              && r.lateReturns == prior.lateReturns
              && r.damagedItems == prior.damagedItems + (if IsDamagedOrLost(ReturnCondition(l)) then 1 else 0)
    ensures ValidBorrower(prior) ==> ValidBorrower(r)
  {
    var bumped := prior.(totalBorrowings := prior.totalBorrowings + 1);
    if l.returned then ScoreReturn(bumped, IsOverdue(l, now), DaysOverdue(l, now), ReturnCondition(l))
    else bumped
  }

  /** `update_credit_score(borrower_name, borrowing)` with the clock reading `now`:
      lazily creates the borrower, then applies one scoring event under the normalised key. */
  function UpdateCreditScore(borrowers: map<string, Borrower>, borrowerName: string, l: Loan, now: int)
    : (r: map<string, Borrower>)
    ensures Normalize(borrowerName) in r
    ensures r.Keys == borrowers.Keys + {Normalize(borrowerName)}
    ensures forall k :: k in borrowers && k != Normalize(borrowerName) ==> r[k] == borrowers[k]
    ensures r[Normalize(borrowerName)] == ScoreEvent(Prior(borrowers, borrowerName, l.contact), l, now)
    ensures Normalize(borrowerName) !in borrowers ==>
              r[Normalize(borrowerName)].name == borrowerName && r[Normalize(borrowerName)].contact == l.contact
  {
    var key := Normalize(borrowerName);
    var updated := ScoreEvent(Prior(borrowers, borrowerName, l.contact), l, now);
    borrowers[key := updated]
  }

  /** Scoring keeps every record valid and every key normalised. */
  lemma UpdatePreservesDirectory(borrowers: map<string, Borrower>, borrowerName: string, l: Loan, now: int)
    requires DirectoryValid(borrowers)
    ensures DirectoryValid(UpdateCreditScore(borrowers, borrowerName, l, now))
  {
    var key := Normalize(borrowerName);
    var r := UpdateCreditScore(borrowers, borrowerName, l, now);
    NormalizeIdempotent(borrowerName);
    forall k | k in r
      ensures ValidBorrower(r[k]) && Normalize(k) == k
    {
      if k != key {
        assert r[k] == borrowers[k];
      }
    }
  }

  /** The score after an on-time return, in closed form: +5, then -50 for a damaged
      or lost item or +2 for an excellent one, then +25 at the tenth event of a
      clean record, with every step clamped to [0, 100]. */
  lemma OnTimeReturnScore(b: Borrower, daysLate: int, cond: Condition)
    requires ValidBorrower(b)
    ensures ScoreReturn(b, false, daysLate, cond).creditScore ==
      if IsDamagedOrLost(cond) then Floor0(Cap100(b.creditScore + 5) - 50)
      else
        var milestone := b.totalBorrowings == MilestoneBorrowings && b.lateReturns == 0 && b.damagedItems == 0;
        Cap100(b.creditScore + (if cond == Excellent then 7 else 5) + (if milestone then 25 else 0))
  {
  }

  /** The score after a late return, in closed form: the lateness penalty floored at
      0, then -50 for a damaged or lost item or +2 for an excellent one. The late
      return itself rules out the milestone. */
  lemma LateReturnScore(b: Borrower, daysLate: int, cond: Condition)
    requires ValidBorrower(b)
    ensures var p := Floor0(b.creditScore + LatePenalty(daysLate));
      ScoreReturn(b, true, daysLate, cond).creditScore ==
        if IsDamagedOrLost(cond) then Floor0(p - 50)
        else if cond == Excellent then Cap100(p + 2)
        else p
  {
  }

  /** The late-penalty branch cannot be reached from a record that is already marked
      returned: scoring a returned record always counts it as on time. */
  lemma ReturnedRecordScoresOnTime(borrowers: map<string, Borrower>, borrowerName: string, l: Loan, now: int)
    requires l.returned
    ensures var prior := Prior(borrowers, borrowerName, l.contact);
      ScoreEvent(prior, l, now) == ScoreReturn(prior.(totalBorrowings := prior.totalBorrowings + 1), false, 0, ReturnCondition(l))
  {
  }
}

=== FILE: tally.dfy ===
/**
 Sums of unit quantities over the unreturned loans that match a filter. Two
 filters occur in the engine: all loans of one utensil (the borrowed count
 the delete action checks) and all loans of one borrower (the active count
 the borrow limit checks).
 */
module Tally {
  import opened Model
  import opened Names

  datatype Filter = ByUtensil(utensilId: int) | ByBorrower(key: string)

  /** An unreturned loan that the filter selects. */
  predicate Counts(l: Loan, f: Filter) {
    !l.returned &&
    match f
    case ByUtensil(id) => l.utensilId == id
    case ByBorrower(key) => Normalize(l.borrowerName) == key
  }

  function Share(l: Loan, f: Filter): int {
    if Counts(l, f) then l.quantity else 0
  }

  /** Total quantity of the unreturned loans the filter selects. */
  function Units(loans: seq<Loan>, f: Filter): int {
    if |loans| == 0 then 0 else Units(loans[..|loans| - 1], f) + Share(loans[|loans| - 1], f)
  }

  /** Units still out for one utensil: `quantity - available` when the ledger is consistent. */
  function Outstanding(loans: seq<Loan>, utensilId: int): int {
    Units(loans, ByUtensil(utensilId))
  }

  lemma UnitsAppend(loans: seq<Loan>, l: Loan, f: Filter)
    ensures Units(loans + [l], f) == Units(loans, f) + Share(l, f)
  {
    assert (loans + [l])[..|loans|] == loans;
  }

  /** Counting a leading record first gives the same total. */
  lemma UnitsCons(l: Loan, rest: seq<Loan>, f: Filter)
    ensures Units([l] + rest, f) == Share(l, f) + Units(rest, f)
  {
    UnitsConcat([l], rest, f);
    assert [l][..0] == [];
  }

  /** A unit sum over two runs of records is the sum of the two. */
  lemma {:induction false} UnitsConcat(a: seq<Loan>, b: seq<Loan>, f: Filter)
    ensures Units(a + b, f) == Units(a, f) + Units(b, f)
    decreases |b|
  {
    if |b| > 0 {
      var n := |b| - 1;
      assert (a + b)[..|a + b| - 1] == a + b[..n];
      UnitsConcat(a, b[..n], f);
    } else {
      assert a + b == a;
    }
  }

  /** Replacing one record changes the sum by exactly the difference of the two shares. */
  lemma {:induction false} UnitsUpdate(loans: seq<Loan>, k: int, l: Loan, f: Filter)
    requires 0 <= k < |loans|
    ensures Units(loans[k := l], f) == Units(loans, f) - Share(loans[k], f) + Share(l, f)
    decreases |loans|
  {
    var n := |loans| - 1;
    if k < n {
      assert loans[k := l][..n] == loans[..n][k := l];
      UnitsUpdate(loans[..n], k, l, f);
    } else {
      assert loans[k := l][..n] == loans[..n];
    }
  }

  /** The sum is never negative while every selected loan has a non-negative quantity. */
  lemma {:induction false} UnitsNonNegative(loans: seq<Loan>, f: Filter)
    requires forall i :: 0 <= i < |loans| && Counts(loans[i], f) ==> loans[i].quantity >= 0
    ensures Units(loans, f) >= 0
    decreases |loans|
  {
    if |loans| > 0 {
      UnitsNonNegative(loans[..|loans| - 1], f);
    }
  }

  /** With positive quantities the sum is zero exactly when the filter selects no loan. */
  lemma {:induction false} UnitsZeroIffNone(loans: seq<Loan>, f: Filter)
    requires forall i :: 0 <= i < |loans| && Counts(loans[i], f) ==> loans[i].quantity >= 1
    ensures Units(loans, f) == 0 <==> forall i :: 0 <= i < |loans| ==> !Counts(loans[i], f)
    decreases |loans|
  {
    if |loans| > 0 {
      var init := loans[..|loans| - 1];
      UnitsZeroIffNone(init, f);
      UnitsNonNegative(init, f);
      if Units(loans, f) == 0 {
        forall i | 0 <= i < |loans|
          ensures !Counts(loans[i], f)
        {
          if i < |loans| - 1 {
            assert loans[i] == init[i];
          }
        }
      } else {
        assert Units(init, f) != 0 || Share(loans[|loans| - 1], f) != 0;
      }
    }
  }
}
